=== FILE: README.md ===
# Clinic client: a Dafny model of its client-side rules

The clinic app is a React client over a hosted backend. Patients book
appointments with staff and chat with them. Staff confirm, cancel, finish or
reschedule appointments and answer messages. Every read, write, sign-in and
realtime subscription is a call into the backend SDK. Between those calls
sits a small amount of pure logic, and that logic is what this project
models:

- the chat (`Chat`): grouping fetched messages into conversations per
  counterpart, unread counts, the newest message per conversation, the
  "Unknown" fallback, room ids and the symmetric thread lookup, the set of
  messages marked read when a thread opens, and the guard, record and
  optimistic append of an outgoing message;
- the staff panel (`StaffPanel`): the notification bell grouped by sender,
  the conjunctive search and status filters, the terminal-status guard on
  the row actions, the writes those actions make, the reschedule dialog,
  the status label and the 40-code-unit preview;
- the staff appointments table (`StaffAppointments`): approve, reject and
  request-reschedule on every row, with no terminal guard, plus the error
  alerts and the fetch guard;
- the patient panel (`PatientPanel`): the staff search, the bell grouped by
  counterpart with a newest-first sort, the booking guard and the booked
  row, and the 50-code-unit preview;
- the combined login/registration form (`AuthForm`) and the login page
  (`Login`): field updates, validation order, the staff registration code,
  the stored user row, the reset after registration, email-versus-phone
  credentials, and role-based routing (`Session`).

The backend is replaced by values. Fetched rows are sequences. Per-id user
lookups are maps, where a missing key stands for "no row". Error replies and
`window.confirm`/`prompt` answers and the browser's check of an email
address are parameters. Writes are returned as
records (`Patch`, `NewAppointment`, `Outgoing`, `UserRecord`). A refetch
after a write is modelled as applying the write to the list. Timestamps are
integers and are used only for ordering. Date text is converted to an ISO
instant by a function parameter `toIso`, which returns nothing for text that
is not a date (in the app the conversion throws, and nothing is written).

Shared modules: `Rows` defines the rows of the remote tables. `Text` models
JavaScript's `trim`, ASCII `toLowerCase`, `includes`, capitalisation, and
previews cut by `length` and `slice`, which count UTF-16 code units rather
than the Unicode scalar values a Dafny string holds. `Lists` holds a generic filter with subsequence,
membership and multiplicity laws. `Grouping` models the `forEach`/`push` grouping into an
object whose keys come back in insertion order, together with unread
counting. `Appointments` holds the status values and the patch applied by a
refetch.

## Model

| member | source | states |
|---|---|---|
| Grouping.Counterpart | src/components/Chat.js:26 | The counterpart is one of the message's two parties. When I am a party, me and the counterpart are exactly the sender and receiver. |
| Grouping.GroupBy | src/components/Chat.js:24-29 | Group keys are distinct. Each group is non-empty and holds exactly the messages with its key, in fetched order. Every message's key has a group. The first group is the first message's key. |
| Grouping.GroupIntoKeepsKeys | src/components/Chat.js:27-28 | The fold never moves or renames a list the object already has: its keys stay a prefix, in place. |
| Grouping.GroupIntoAppend | src/components/Chat.js:25-28 | Running the grouping fold over a + b is running it over a, then over b. |
| Grouping.GroupByPrefix | src/components/Chat.js:24-32 | Keys come in the order of their first message: the groups of any prefix of the messages come first in the grouping of all of them, with the same keys in the same order. |
| Grouping.ExactlyOneGroup | src/pages/StaffPanel.js:41-46 | Every fetched message lies in exactly one group: the one for its key. |
| Grouping.SumCountsGroupBy | src/pages/StaffPanel.js:72 | Summing any per-group count over the groups gives the same count over all fetched messages. |
| Grouping.GroupSizesPartition | src/components/Chat.js:24-29 | The group sizes add up to the number of fetched messages, so grouping neither loses nor duplicates a message. |
| Grouping.ReceivedBySenderIsByCounterpart | src/pages/StaffPanel.js:36-46 | When every row is addressed to me, grouping by sender and grouping by counterpart give the same groups. |
| Grouping.FirstIsNewest | src/components/Chat.js:22 | With rows newest first, a group's first message is at least as new as every message with that key. |
| Grouping.LastIsNewest | src/pages/StaffPanel.js:37 | With rows oldest first, a group's last message is at least as new as every message with that key. |
| Grouping.CountAppend | src/components/Chat.js:41-43 | Counting distributes over concatenation. |
| Grouping.SumCountsGroupInto | src/components/Chat.js:25-28 | Each fold step of the grouping preserves the total count: groups after the fold hold the earlier total plus the count of the new rows. |
| Grouping.GroupIntoGrouped | src/components/Chat.js:25-28 | The grouping fold keeps its invariant: distinct keys, each group equal to the rows seen so far with its key, and every seen row covered. |
| Chat.Summarize | src/components/Chat.js:39-50 | A conversation shows the group's first message and time. Its unread count counts the group's rows addressed to me and unread. The user is the looked-up row, or "Unknown"/"" with no id. |
| Chat.PeerFor | src/components/Chat.js:46 | The peer has an id exactly when the user row exists. It copies that row's id and names, and otherwise falls back to "Unknown" and "". |
| Chat.Conversations | src/components/Chat.js:24-52 | There is one conversation per counterpart group, in the groups' first-seen order, each showing that counterpart's user. The first conversation is with the counterpart of the first fetched row. The sidebar is empty exactly when the fetch returned no rows. |
| Chat.ConversationUnreadTotal | src/components/Chat.js:41-43 | The conversations' unread counts add up to the number of fetched rows addressed to me and unread. |
| Chat.SentNeverUnread | src/components/Chat.js:42 | Messages I sent to someone else never count as unread for me. |
| Chat.ConversationIsNewest | src/components/Chat.js:40-48 | With rows newest first, a conversation's time is at least that of every row with that counterpart. Its last message and time come from one such row. |
| Chat.InitialPeer | src/components/Chat.js:56-58 | An already active peer is kept. With none, the first conversation's user becomes active. With no conversations, nothing becomes active. |
| Chat.RefreshSidebar | src/components/Chat.js:15-58 | With no profile, or `null` data from the fetch, nothing changes. Otherwise the sidebar shows the conversations and keeps an active peer. With none active, the counterpart of the first fetched row (the newest, on this newest-first query) becomes active, and an empty fetch leaves nothing active. |
| Chat.SidebarPreview | src/components/Chat.js:191 | A text of at most 25 UTF-16 code units is shown whole. A longer one shows a prefix of 24 or 25 code units followed by "...". The prefix is 24 units only when the next character, taking two units, would not fit. A text made only of characters from the Basic Multilingual Plane shows exactly its first 25 characters and "...". |
| Chat.RoomId | src/components/Chat.js:66-67 | A room id is "room_staff", then the first id, then "_patient", then the second id, each at its stated position. |
| Chat.RoomIdParties | src/components/Chat.js:66-67 | For ids of equal length, equal room ids have the same staff id and the same patient id, so a room names its two parties. |
| Chat.ThreadRows | src/components/Chat.js:69-73 | The thread query returns exactly the table rows filed under either room id of the pair, each as often as in the table, in the table's order. When the table comes oldest first, as the `created_at` ascending sort delivers it, so does the thread. |
| Chat.ThreadRowsSymmetric | src/components/Chat.js:66-72 | Both parties of a pair get the same thread rows in the same order. |
| Chat.UnreadIds | src/components/Chat.js:77-84 | The ids sent to be marked read are exactly those of fetched rows addressed to me and unread, one per such row. |
| Chat.MarkRead | src/components/Chat.js:81-84 | After the update, a row is read exactly when it was read already or its id is among the ids sent. No other field of any row changes. |
| Chat.OpeningMarksExactlyMine | src/components/Chat.js:77-85 | After the mark-read write, a row is read exactly when it was read already or is addressed to me. No other field changes. |
| Chat.ReadWrite | src/components/Chat.js:80-85 | No write is issued exactly when nothing is unread for me. |
| Chat.Send | src/components/Chat.js:132-151 | A blank draft, a missing peer or a missing profile changes nothing. Otherwise the trimmed text goes out with me as sender and the peer as receiver, in room_staff{me}_patient{peer}, unread. The draft is cleared and exactly one row is appended with earlier rows unchanged. |
| Chat.SentMessageInBothThreads | src/components/Chat.js:133-148 | A sent message is non-blank and has no surrounding white space. It shows in the thread of both parties. |
| Text.Trim | src/components/Chat.js:133 | The result is a slice of the input with only white space cut on either side, and it neither starts nor ends with white space. |
| Text.TrimEmptyIff | src/components/Chat.js:133 | Trimming gives the empty string exactly when the input is all white space. |
| Text.TrimIdempotent | src/components/Chat.js:137 | Trimming twice is trimming once. |
| Text.ToLower | src/pages/StaffPanel.js:137 | Lower-casing keeps the length and turns each ASCII capital into its own lower-case letter, 32 code points on. Every other character is unchanged, and no ASCII capital is left. |
| Text.ContainsIff | src/pages/StaffPanel.js:140-141 | The substring scan succeeds exactly when the pattern occurs at some position. |
| Text.ContainsPrefix | src/pages/PatientPanel.js:44 | A string that includes p + q also includes p. |
| Text.ContainsInSuffix | src/pages/PatientPanel.js:44 | Whatever the tail of a string includes, the whole string includes. |
| Text.ContainsChar | src/pages/Login.js:21 | Including the one-character string "c" is the same as containing the character c. |
| Text.Preview | src/pages/PatientPanel.js:212-214 | A text of at most n UTF-16 code units is unchanged. A longer one becomes a prefix of it filling n code units, or n - 1 when the cut would split a character, followed by "...". The prefix always stops where the next character would no longer fit. |
| Text.Length | src/components/Chat.js:191 | A text's JavaScript length lies between its number of characters and twice that. |
| Text.Take | src/pages/PatientPanel.js:213 | The cut is a prefix of the text within n code units, and the next character would not fit. |
| Text.PreviewBmp | src/pages/PatientPanel.js:212-214 | For a text made only of characters from the Basic Multilingual Plane, the preview is the text when it has at most n characters, and otherwise its first n characters followed by "...". |
| Text.Capitalize | src/pages/StaffPanel.js:287 | The length is kept, every character after the first is unchanged, and a lower-case ASCII first letter becomes its capital. |
| Lists.Filter | src/pages/StaffPanel.js:133-160 | The filter keeps exactly the elements that pass, each as many times as it occurs, as an order-preserving subsequence. |
| Lists.FilterFilter | src/pages/StaffPanel.js:134-157 | Two filters in a row equal one filter by the conjunction. |
| Lists.FilterAppend | src/pages/StaffPanel.js:133-160 | Filtering distributes over concatenation. |
| Lists.FilterKeepsAll | src/pages/StaffPanel.js:136 | A filter every element passes is the identity. |
| Appointments.StatusNameInjective | src/pages/StaffPanel.js:155-157 | Distinct statuses are stored as distinct texts, so comparing the stored text is comparing statuses. |
| Appointments.Apply | src/pages/StaffAppointments.js:56-62 | After a write, rows with the written id take its status, and its date when it has one. Every other row, every id and every joined patient are unchanged. |
| Appointments.ApplyIdempotent | src/pages/StaffPanel.js:163-166 | Writing the same patch twice is writing it once. |
| StaffPanel.SummarizeSender | src/pages/StaffPanel.js:49-67 | An entry shows the sender's last (newest) row and counts the sender's unread rows. With no user row the id falls back to the sender id and the names to "Unknown" and "". Empty id or first-name fields fall back too. |
| StaffPanel.RefreshBell | src/pages/StaffPanel.js:30-73 | With no profile, or a failed query, the bell is kept. Otherwise there is one entry per sender. The badge is the sum of the entries and equals the number of unread received rows. |
| StaffPanel.BadgeTotalSummaries | src/pages/StaffPanel.js:72 | The badge total equals the sum of the groups' unread counts. |
| StaffPanel.UnreadReceivedCount | src/pages/StaffPanel.js:36 | When every row is addressed to me, "unread" and "unread and addressed to me" count the same. |
| StaffPanel.BellCountsUnreadReceived | src/pages/StaffPanel.js:36-72 | The staff badge counts the unread messages addressed to me. The entries group the rows exactly as the chat groups them by counterpart. |
| StaffPanel.SenderSummaryIsNewest | src/pages/StaffPanel.js:37-51 | With rows oldest first, an entry's time is at least that of every row from that sender. |
| StaffPanel.BellPreview | src/pages/StaffPanel.js:251 | A text of at most 40 UTF-16 code units is shown whole. A longer one shows a prefix of 39 or 40 code units followed by "...". The prefix is 39 units only when the next character, taking two units, would not fit. A text made only of characters from the Basic Multilingual Plane shows exactly its first 40 characters and "...". |
| StaffPanel.FilterAppointments | src/pages/StaffPanel.js:133-160 | The table keeps exactly the appointments passing both the name and the status filter, in order. It equals one conjunctive filter, and with both filters empty it is the whole list. |
| StaffPanel.FilterSteps | src/pages/StaffPanel.js:134-157 | Applying the set filters one after the other equals the single conjunctive filter, in each of the four cases. |
| StaffPanel.Next | src/pages/StaffPanel.js:290-293 | An action has a target status exactly when the row's status is not done or cancelled. |
| StaffPanel.TerminalIffNoAction | src/pages/StaffPanel.js:163-179 | A status is final exactly when no action is offered. Otherwise Confirm, Cancel, Done and Reschedule lead to confirmed, cancelled, done and pending. |
| StaffPanel.ActionPatch | src/pages/StaffPanel.js:163-189 | There is no write on a final row, on a declined confirmation, or on a reschedule without a usable date. Otherwise the write targets the row, sets the action's status, and sets a date only for a reschedule. |
| StaffPanel.Act | src/pages/StaffPanel.js:163-194 | After an action and refetch, a final row leaves the list unchanged. Rows with other ids never change. When the write happens, the acted-on row takes the action's status, and a reschedule also takes the new date; otherwise its date is kept. |
| StaffPanel.OpenReschedule | src/pages/StaffPanel.js:292 | The dialog opens on the row and keeps the date text typed earlier. |
| StaffPanel.CancelReschedule | src/pages/StaffPanel.js:324 | Cancel closes the dialog and keeps the date text. |
| StaffPanel.SaveReschedule | src/pages/StaffPanel.js:181-194 | With no date, saving only alerts "Select a new date". A non-date writes nothing. Otherwise it writes the date with status pending and closes and clears the dialog. |
| StaffPanel.SaveIsRescheduleAction | src/pages/StaffPanel.js:181-194 | Saving the dialog opened on a row writes what that row's Reschedule action writes. |
| StaffPanel.CancelledDateCarriesOver | src/pages/StaffPanel.js:321-324 | A date typed in a cancelled dialog is saved for the next row the dialog opens on. |
| StaffPanel.StatusLabel | src/pages/StaffPanel.js:287 | The label is the stored status text with its first letter as a capital. |
| StaffAppointments.Fetch | src/pages/StaffAppointments.js:11-29 | With no staff id, or an empty one, nothing changes. Otherwise loading ends: an error keeps the rows, null data gives no rows, and data replaces them. |
| StaffAppointments.ErrorText | src/pages/StaffAppointments.js:42-46 | The reschedule failure, and only it, alerts "Error requesting reschedule.". Approve and reject alert "Error updating appointment.". |
| StaffAppointments.DecisionPatch | src/pages/StaffAppointments.js:36-62 | Approve writes confirmed and Reject writes rejected, status only. A reschedule writes nothing for a cancelled, empty or non-date answer. Otherwise it writes the converted date with status reschedule_requested. |
| StaffAppointments.Decide | src/pages/StaffAppointments.js:36-71 | No write leaves the list. A failed write alerts and leaves it too. A successful write shows no alert, and rows with other ids never change. A successful approve or reject sets the status and keeps the date; a successful reschedule request sets reschedule_requested and the converted date. |
| StaffAppointments.FinalRowsReopenHere | src/pages/StaffAppointments.js:103-125 | A done or cancelled row, which the staff panel offers no action on, can still be approved here back to confirmed. |
| StaffAppointments.Render | src/pages/StaffAppointments.js:73-132 | The table shows exactly when there is a staff id, loading is over and rows exist, and it shows those rows. Without a staff id the page waits for staff data. |
| StaffAppointments.ShowsWhatWasFetched | src/pages/StaffAppointments.js:27-28 | With a staff id, a fetch returning rows lists exactly those rows. An empty or `null` result shows "No appointments found.". A failed fetch keeps showing the rows from before, or the empty notice if there were none. |
| PatientPanel.FilterStaff | src/pages/PatientPanel.js:42-47 | The dialog lists exactly the staff whose lower-cased "first last position" includes the lower-cased search, in order. An empty search lists everyone. It is the generic filter with the match test, so every matching row is kept as many times as it occurs. |
| PatientPanel.SearchNarrows | src/pages/PatientPanel.js:43-45 | Typing more only narrows the list: whoever matches a + b matches a. |
| PatientPanel.PositionMatches | src/pages/PatientPanel.js:44 | Searching for part of a staff member's position finds them. |
| PatientPanel.MissingPositionMatchesNull | src/pages/PatientPanel.js:44 | A staff member without a position matches the search "null", since the missing value is written as that word. |
| PatientPanel.Insert | src/pages/PatientPanel.js:93 | Insertion adds exactly the one message to the list. |
| PatientPanel.InsertNewestFirst | src/pages/PatientPanel.js:93 | Insertion keeps a newest-first list newest first. |
| PatientPanel.SortNewest | src/pages/PatientPanel.js:93 | The sort yields a newest-first permutation of the group. |
| PatientPanel.SortNewestKeepsSorted | src/pages/PatientPanel.js:78-93 | On rows already newest first, as the query returns them, the sort changes nothing. |
| PatientPanel.SummarizeStaff | src/pages/PatientPanel.js:92-115 | An entry's time is at least that of every message with that counterpart, and its message and time come from one of them. Unread counts the rows addressed to me and unread. The user is the looked-up row, if any. |
| PatientPanel.BadgeTotalSummaries | src/pages/PatientPanel.js:120 | The badge total equals the sum of the groups' unread counts. |
| PatientPanel.RefreshBell | src/pages/PatientPanel.js:71-121 | With no profile or a failed query the bell is kept. Otherwise there is one entry per counterpart, and the badge is the number of rows addressed to me and unread. |
| PatientPanel.BellAgreesWithChat | src/pages/PatientPanel.js:83-120 | On newest-first rows, the patient's bell shows the same last message, time and unread count per counterpart as the chat sidebar, and the same total. |
| PatientPanel.BellPreview | src/pages/PatientPanel.js:212-214 | A text of at most 50 UTF-16 code units is shown whole. A longer one shows a prefix of 49 or 50 code units followed by "...". The prefix is 49 units only when the next character, taking two units, would not fit. A text made only of characters from the Basic Multilingual Plane shows exactly its first 50 characters and "...". |
| PatientPanel.Pick | src/pages/PatientPanel.js:281 | Clicking a staff entry selects it and leaves the dialog and date alone. |
| PatientPanel.SaveAppointment | src/pages/PatientPanel.js:149-166 | No staff or no date only alerts "Please select staff and date.". A row is written exactly when both are set, the date converts and the insert succeeds. The row has me as patient, the picked staff id, the converted date and status pending, and the dialog closes and clears. A failed insert alerts "Saving failed." and keeps the dialog. |
| PatientPanel.SaveTwiceBooksOnce | src/pages/PatientPanel.js:149-166 | After a save that wrote a row, saving again writes nothing and only alerts "Please select staff and date.", whatever the conversion or the insert would do. |
| PatientPanel.PickThenSaveBooksPicked | src/pages/PatientPanel.js:149-166 | Picking a staff member and then saving a date that converts writes a pending row for that staff member at the converted date, when the insert succeeds. |
| Session.Path | src/pages/AuthForm.js:121-124 | The staff panel's path is "/staffpanel" and the patient panel's is "/patientpanel". |
| Session.PathInjective | src/pages/Login.js:51-55 | The two panels have distinct paths. |
| Session.RouteFor | src/pages/Login.js:51-55 | Exactly the role "staff" goes to the staff panel. Every other role goes to the patient panel. |
| Session.Land | src/pages/AuthForm.js:101-124 | A sign-in error shows its message. A missing profile shows the page's not-found message. Otherwise the app navigates with the profile unchanged, to the staff panel exactly when the role is "staff". |
| AuthForm.Change | src/pages/AuthForm.js:23-24 | The changed field takes the new value, and every other field keeps its own. |
| AuthForm.RegistrationError | src/pages/AuthForm.js:38-55 | No message exactly when the four required fields are set and a staff registrant gives a position and the code "1234". Otherwise the message is that of the first failing check: required fields, then position, then code. |
| AuthForm.NewUser | src/pages/AuthForm.js:65-74 | The stored row has the new id, names, email, selected role and verified = true. Its position is the given one for staff and absent otherwise. |
| AuthForm.Register | src/pages/AuthForm.js:37-89 | Once the browser lets the form through (see AuthForm.Submit), sign-up is requested, with the email and password, exactly when validation passes. A row is stored exactly when sign-up returns a non-empty id and the insert succeeds. Success shows the success message, switches to login mode and empties all six fields. Any failure keeps the form and mode and shows its own message: the validation message, the sign-up error, the missing-id message or the insert error. |
| AuthForm.LogIn | src/pages/AuthForm.js:94-125 | Once the browser lets the form through (see AuthForm.Submit), sign-in is requested exactly when email and password are set; otherwise "Email and password are required." shows. The result is the landing for the reply, with "User not found." for a missing profile. |
| AuthForm.Submit | src/pages/AuthForm.js:26-131 | A non-empty address the browser rejects blocks the submission: nothing changes and nothing is sent. Otherwise registration mode runs the registration branch and login mode the login branch. Sign-up and stored rows come only from registration mode, and sign-in and navigation only from login mode. |
| AuthForm.SignUpIffValid | src/pages/AuthForm.js:37-58 | A sign-up request is sent exactly when the form is in registration mode, the browser accepts the address and the checks pass. A stored staff row always came with the code and a position. |
| AuthForm.PatientIgnoresStaffFields | src/pages/AuthForm.js:44-55 | For a patient, forms that differ only in position and code send the same sign-up, store the same row and show the same message. |
| AuthForm.SubmitAfterRegistration | src/pages/AuthForm.js:79-99 | Right after a successful registration, submitting again asks for email and password and sends nothing. |
| Login.CredentialsFor | src/pages/Login.js:21-31 | An identifier containing "@" is sent as an email, anything else as a phone number, with the password unchanged. |
| Login.HandleLogin | src/pages/Login.js:13-61 | Nothing is submitted while either field is empty. An auth error shows its message; a missing profile shows "User not found in database.". Both cases stay on the page. Otherwise it navigates with the profile, to the staff panel exactly for the role "staff". |
| Login.SameLandingAsAuthForm | src/pages/Login.js:33-55 | The combined form signs in exactly when the browser accepts the address; this page checks no address. When both sign in with the same reply, they land on the same panel with the same profile, and their messages differ exactly in the not-found case. |

## Left out

- Backend I/O (queries, inserts, updates, sign-in and sign-up, realtime channels and their removal): replaced by inputs and returned records as described above.
- The per-id user lookups behind `Promise.all`: a map from id to row, where a failed lookup is a missing key.
- Dates and times: `formatTime` and its "today" test in the chat, the "Today" label and `toLocaleString`/`toLocaleTimeString` in the panels, and the staff panel's date filter (src/pages/StaffPanel.js:145-153). These depend on the locale and the time zone. `new Date(text).toISOString()` is the `toIso` parameter.
- `window.confirm`, `prompt` and `alert`: confirmations and prompt answers are inputs, and alerts are returned texts.
- React effects and DOM work: the textarea auto-resize, auto-scroll, bell and modal toggles, the View modal, the loading flags of the panels, the login/register toggle and the role select (plain state setters). Also left out are the races between the optimistic append and the realtime refetch.
- The patient panel's own appointment fetch and table: the same guard-then-replace pattern as `StaffAppointments.Fetch`, over rows joined with the staff member.
- The staff panel's `openChat` (src/pages/StaffPanel.js:196-214): it fetches the full user row when the summary lacks an email, which is backend I/O.
- Staff panel writes ignore the backend's error reply and always refetch: `StaffPanel.Act` applies the write, as a successful update would.
- Opening a chat with an "Unknown" peer, which has no id, builds room ids containing "undefined". `Chat.Send` takes the counterpart id as an option and does not model that text.
- Object key order: keys come back in insertion order for the UUID ids used here. JavaScript puts integer-like keys first, and that case is not modelled.
- Name fields that are `null` in the database are modelled as strings. A null name would render or search as "null" or fail the optional chaining.
- Text.Preview: when the cut at n code units falls inside a character outside the Basic Multilingual Plane, JavaScript's `slice` keeps a lone high surrogate, which a Dafny string cannot hold. The model drops the whole character, so that preview is one code unit shorter.
- Chat.SidebarPreview: inherits the split-character case of `Text.Preview` at 25 code units.
- StaffPanel.BellPreview: inherits the split-character case of `Text.Preview` at 40 code units.
- PatientPanel.BellPreview: inherits the split-character case of `Text.Preview` at 50 code units.
- StaffPanel.Act: the refetch after a write sorts by `appointment_date` (src/pages/StaffPanel.js:115). The model keeps each row in its old position, so after a reschedule the app may show the row elsewhere in the list. The rows and their contents agree.
- StaffAppointments.Decide: the same for this page's refetch, which also sorts by `appointment_date` (src/pages/StaffAppointments.js:25). A reschedule request can move the row in the app.
- Text.ToLower: ASCII letters only. JavaScript's `toLowerCase` also maps non-ASCII letters, and the model leaves those unchanged.
- Text.Capitalize: ASCII letters only, for the same reason. Every stored status is ASCII, so the status label is unaffected.
- src/offlineDB.js, src/pages/api/confirm-email.js, src/components/FileUpload.js, src/App.js, src/pages/Landing.js and src/pages/Home.js are not part of this model. They are storage, admin and upload I/O, or routing and markup with no logic of their own.

=== FILE: appointments.dfy ===
/**
 Rows of the `appointments` table and the status values the client writes
 into them, shared by the staff panel, the staff appointments table and the
 patient panel.
 */
module Appointments {
  import opened Rows

  /** The values of the `status` column the client writes or filters on. */
  datatype Status = Pending | Confirmed | Cancelled | Done | Rejected | RescheduleRequested

  /** The text stored in the `status` column. */
  function StatusName(s: Status): (r: string)
    ensures r != ""
  {
    match s
    case Pending => "pending"
    case Confirmed => "confirmed"
    case Cancelled => "cancelled"
    case Done => "done"
    case Rejected => "rejected"
    case RescheduleRequested => "reschedule_requested"
  }

  /** Distinct statuses are stored as distinct texts, so comparing texts is
      comparing statuses. */
  lemma StatusNameInjective(a: Status, b: Status)
    ensures StatusName(a) == StatusName(b) <==> a == b
  {
    if a != b {
      var x, y := StatusName(a), StatusName(b);
      if |x| == |y| {
        assert {a, b} == {Confirmed, Cancelled};
        assert x[1] != y[1];
      }
    }
  }

  /** An appointment as a staff member's list shows it, with the joined
      patient row (absent when the join found none). Dates are kept as the
      text the client was given. */
  datatype Appointment = Appointment(id: RowId, date: string, status: Status, patient: Option<Person>)

  /** `update({ status[, appointment_date] }).eq("id", id)`. */
  datatype Patch = Patch(id: RowId, status: Status, date: Option<string>)

  /** The list a refetch returns after the patch is written: the rows with the
      patch's id take its status (and date, when it has one); nothing else changes. */
  function Apply(appts: seq<Appointment>, p: Patch): (r: seq<Appointment>)
    ensures |r| == |appts|
    ensures forall i :: 0 <= i < |appts| ==> r[i].id == appts[i].id && r[i].patient == appts[i].patient
    ensures forall i :: 0 <= i < |appts| && appts[i].id != p.id ==> r[i] == appts[i]
    ensures forall i :: 0 <= i < |appts| && appts[i].id == p.id ==>
      r[i].status == p.status && r[i].date == (if p.date.Some? then p.date.value else appts[i].date)
  {
    if appts == [] then []
    else
      var a := appts[0];
      var a' := if a.id != p.id then a
        else a.(status := p.status, date := if p.date.Some? then p.date.value else a.date);
      [a'] + Apply(appts[1..], p)
  }

  /** Writing the same patch twice is writing it once. */
  lemma {:induction false} ApplyIdempotent(appts: seq<Appointment>, p: Patch)
    ensures Apply(Apply(appts, p), p) == Apply(appts, p)
  {
    var r := Apply(appts, p);
    var rr := Apply(r, p);
    assert |rr| == |r|;
    forall i | 0 <= i < |r|
      ensures rr[i] == r[i]
    {
    }
  }
}

=== FILE: auth_form.dfy ===
/**
 The combined login and registration form (src/pages/AuthForm.js). The
 auth service, the `users` insert and the profile lookup are not modelled:
 their answers are parameters of `Submit`.
 */
module AuthForm {
  import opened Rows
  import opened Session

  /** The named inputs of the form. */
  datatype Field = FirstName | LastName | Email | Password | Position | Secret

  /** The form's values, one per input. */
  datatype Form = Form(firstName: string, lastName: string, email: string, password: string, position: string, secret: string)

  /** The form as it starts and as a successful registration leaves it. */
  const EmptyForm := Form("", "", "", "", "", "")

  /** The value of one input. */
  function Get(f: Form, k: Field): string {
    match k
    case FirstName => f.firstName
    case LastName => f.lastName
    case Email => f.email
    case Password => f.password
    case Position => f.position
    case Secret => f.secret
  }

  /** `handleChange`: the changed input takes the new value; the others keep theirs. */
  function Change(f: Form, k: Field, v: string): (r: Form)
    ensures Get(r, k) == v
    ensures forall j :: j != k ==> Get(r, j) == Get(f, j)
  {
    match k
    case FirstName => f.(firstName := v)
    case LastName => f.(lastName := v)
    case Email => f.(email := v)
    case Password => f.(password := v)
    case Position => f.(position := v)
    case Secret => f.(secret := v)
  }

  /** The registration code staff must enter. */
  const StaffCode := "1234"

  /** The four inputs registration requires for every role. */
  predicate HasRequired(f: Form) {
    f.firstName != "" && f.lastName != "" && f.email != "" && f.password != ""
  }

  /** What registration demands of the chosen role: staff give a position and the code. */
  predicate RoleFieldsOk(role: string, f: Form) {
    role == "staff" ==> f.position != "" && f.secret == StaffCode
  }

  /** The message of the first registration check that fails, in the order
      the form checks them; none when the input may be sent for sign-up. */
  function RegistrationError(role: string, f: Form): (r: Option<string>)
    ensures r.None? <==> HasRequired(f) && RoleFieldsOk(role, f)
    ensures !HasRequired(f) ==> r == Some("First name, last name, email, and password are required.")
    ensures HasRequired(f) && role == "staff" && f.position == "" ==> r == Some("Staff must provide position.")
    ensures HasRequired(f) && role == "staff" && f.position != "" && f.secret != StaffCode ==>
      r == Some("Invalid staff registration code!")
  {
    if !HasRequired(f) then Some("First name, last name, email, and password are required.")
    else if role == "staff" && f.position == "" then Some("Staff must provide position.")
    else if role == "staff" && f.secret != StaffCode then Some("Invalid staff registration code!")
    else None
  }

  /** The `users` row registration inserts for the new auth user. */
  function NewUser(uid: UserId, role: string, f: Form): (u: UserRecord)
    ensures u.id == uid && u.role == role && u.verified
    ensures u.firstName == f.firstName && u.lastName == f.lastName && u.email == f.email
    ensures u.position.Some? <==> role == "staff"
    ensures u.position.Some? ==> u.position.value == f.position
  {
    UserRecord(uid, f.firstName, f.lastName, f.email, role, if role == "staff" then Some(f.position) else None, true)
  }

  /** What sign-up answered: its error message, or the user id it returned (if any). */
  datatype SignUpReply = SignUpFailed(error: string) | SignedUp(userId: Option<UserId>)

  /** The form's state. */
  datatype Page = Page(isRegister: bool, role: string, loading: bool, message: string, form: Form)

  /** What a submission did: the page after it, the sign-up and sign-in
      requests it sent (email and password), the `users` row it stored and the
      navigation it made. */
  datatype Outcome = Outcome(
    page: Page,
    signUp: Option<(string, string)>,
    stored: Option<UserRecord>,
    signIn: Option<(string, string)>,
    nav: Option<Navigation>)

  /** The registration branch of `handleSubmit`, which runs once the browser
      has let the form through (see `Submit`). `insertError` is the insert's
      error message, if it reports one. */
  function Register(p: Page, reply: SignUpReply, insertError: Option<string>): (r: Outcome)
    requires p.isRegister
    ensures r.signIn.None? && r.nav.None? && !r.page.loading
    ensures r.signUp.Some? <==> RegistrationError(p.role, p.form).None?
    ensures r.signUp.Some? ==> r.signUp.value == (p.form.email, p.form.password)
    ensures r.signUp.None? ==> r.page.message == RegistrationError(p.role, p.form).value
    ensures r.stored.Some? <==>
      && r.signUp.Some? && reply.SignedUp? && reply.userId.Some? && reply.userId.value != ""
      && insertError.None?
    ensures r.stored.Some? ==>
      && r.stored.value == NewUser(reply.userId.value, p.role, p.form)
      && r.page == Page(false, p.role, false, "Registration successful! You can now log in.", EmptyForm)
    ensures r.stored.None? ==> r.page.isRegister && r.page.form == p.form && r.page.role == p.role
    ensures r.signUp.Some? && reply.SignedUp? && (reply.userId.None? || reply.userId.value == "") ==>
      r.page.message == "Signup failed: no user ID returned."
    ensures r.signUp.Some? && reply.SignUpFailed? ==> r.page.message == reply.error
    ensures r.signUp.Some? && reply.SignedUp? && reply.userId.Some? && reply.userId.value != "" && insertError.Some? ==>
      r.page.message == insertError.value
  {
    var fail := (m: string) => p.(loading := false, message := m);
    match RegistrationError(p.role, p.form)
    case Some(m) => Outcome(fail(m), None, None, None, None)
    case None =>
      var sent := Some((p.form.email, p.form.password));
      match reply
      case SignUpFailed(e) => Outcome(fail(e), sent, None, None, None)
      case SignedUp(uid) =>
        if uid.None? || uid.value == "" then
          Outcome(fail("Signup failed: no user ID returned."), sent, None, None, None)
        else if insertError.Some? then
          Outcome(fail(insertError.value), sent, None, None, None)
        else
          Outcome(Page(false, p.role, false, "Registration successful! You can now log in.", EmptyForm),
                  sent, Some(NewUser(uid.value, p.role, p.form)), None, None)
  }

  /** The message when the profile lookup after sign-in finds no row. */
  const NotFound := "User not found."

  /** The login branch of `handleSubmit`, which runs once the browser has let
      the form through (see `Submit`): both inputs are required, then the
      password sign-in and the profile lookup decide the panel. */
  function LogIn(p: Page, reply: SignInReply, profiles: map<UserId, UserRecord>): (r: Outcome)
    requires !p.isRegister
    ensures r.signUp.None? && r.stored.None? && !r.page.loading && r.page.form == p.form
    ensures r.signIn.Some? <==> p.form.email != "" && p.form.password != ""
    ensures r.signIn.None? ==> r.page.message == "Email and password are required." && r.nav.None?
    ensures r.signIn.Some? ==>
      && r.signIn.value == (p.form.email, p.form.password)
      && r.nav == (match Land(reply, profiles, NotFound) case Navigated(n) => Some(n) case Refused(_) => None)
      && r.page.message == (match Land(reply, profiles, NotFound) case Navigated(_) => "" case Refused(m) => m)
  {
    if p.form.email == "" || p.form.password == "" then
      Outcome(p.(loading := false, message := "Email and password are required."), None, None, None, None)
    else
      var sent := Some((p.form.email, p.form.password));
      match Land(reply, profiles, NotFound)
      case Refused(m) => Outcome(p.(loading := false, message := m), None, None, sent, None)
      case Navigated(n) => Outcome(p.(loading := false, message := ""), None, None, sent, Some(n))
  }

  /** The email input has `type="email"` but no `required`: the browser
      refuses to submit a non-empty text that is not a well-formed address.
      `emailValid` is the browser's address check. */
  predicate BrowserBlocks(email: string, emailValid: string -> bool) {
    email != "" && !emailValid(email)
  }

  /** Submitting the form: the browser's address check, then `handleSubmit`,
      which runs registration or login by the form's mode. A blocked
      submission changes nothing and sends nothing. */
  function Submit(p: Page, emailValid: string -> bool, signUp: SignUpReply, insertError: Option<string>,
                  signIn: SignInReply, profiles: map<UserId, UserRecord>): (r: Outcome)
    ensures BrowserBlocks(p.form.email, emailValid) ==> r == Outcome(p, None, None, None, None)
    ensures r.signUp.Some? || r.stored.Some? ==> p.isRegister && !BrowserBlocks(p.form.email, emailValid)
    ensures r.signIn.Some? || r.nav.Some? ==> !p.isRegister && !BrowserBlocks(p.form.email, emailValid)
    ensures !BrowserBlocks(p.form.email, emailValid) ==>
      r == if p.isRegister then Register(p, signUp, insertError) else LogIn(p, signIn, profiles)
  {
    if BrowserBlocks(p.form.email, emailValid) then Outcome(p, None, None, None, None)
    else if p.isRegister then Register(p, signUp, insertError)
    else LogIn(p, signIn, profiles)
  }

  /** A sign-up request is sent exactly when the form is in registration
      mode, the browser accepts the address and the checks pass; a staff account therefore always has the
      registration code, and its stored row always has a position. */
  lemma SignUpIffValid(p: Page, emailValid: string -> bool, signUp: SignUpReply, insertError: Option<string>,
                       signIn: SignInReply, profiles: map<UserId, UserRecord>)
    ensures var r := Submit(p, emailValid, signUp, insertError, signIn, profiles);
      && (r.signUp.Some? <==>
            p.isRegister && emailValid(p.form.email) && HasRequired(p.form) && RoleFieldsOk(p.role, p.form))
      && (r.stored.Some? && r.stored.value.role == "staff" ==>
            p.form.secret == StaffCode && r.stored.value.position == Some(p.form.position) && p.form.position != "")
  {
  }

  /** A patient's registration does not depend on the staff-only inputs:
      forms that differ only in position and code send the same sign-up,
      store the same row and show the same message. */
  lemma PatientIgnoresStaffFields(p: Page, position: string, secret: string,
                                  reply: SignUpReply, insertError: Option<string>)
    requires p.isRegister && p.role != "staff"
    ensures var q := p.(form := p.form.(position := position, secret := secret));
      var r1 := Register(p, reply, insertError);
      var r2 := Register(q, reply, insertError);
      r1.signUp == r2.signUp && r1.stored == r2.stored && r1.page.message == r2.page.message
  {
  }

  /** After a successful registration the form is back in login mode and
      empty, so submitting it straight away asks for the email and password
      and sends nothing. */
  lemma SubmitAfterRegistration(p: Page, reply: SignUpReply, emailValid: string -> bool, signUp2: SignUpReply,
                                insertError: Option<string>, signIn: SignInReply, profiles: map<UserId, UserRecord>)
    requires p.isRegister
    requires Register(p, reply, insertError).stored.Some?
    ensures var r := Submit(Register(p, reply, insertError).page, emailValid, signUp2, None, signIn, profiles);
      r.signIn.None? && r.signUp.None? && r.page.message == "Email and password are required."
  {
    assert Register(p, reply, insertError).page.form == EmptyForm;
  }
}

=== FILE: chat.dfy ===
/**
 The chat overlay shared by both panels (src/components/Chat.js): the
 sidebar of conversations built from every message the signed-in user sent
 or received, the message thread with one counterpart, the mark-as-read
 write issued when a thread is opened, and the optimistic send.
 */
module Chat {
  import opened Rows
  import opened Lists
  import opened Text
  import opened Grouping

  // ---------------------------------------------------------------- sidebar

  /** The user shown for a conversation. A counterpart whose `users` row was
      not found is shown by a placeholder that carries no id. */
  datatype Peer = Peer(id: Option<UserId>, firstName: string, lastName: string)

  /** One sidebar entry. */
  datatype Conversation = Conversation(user: Peer, lastMessage: string, time: Timestamp, unread: nat)

  /** The user row of a counterpart, or the "Unknown" placeholder when the lookup found none. */
  function PeerFor(users: map<UserId, Person>, uid: UserId): (p: Peer)
    ensures p.id.Some? <==> uid in users
    ensures uid in users ==> p.id.value == users[uid].id && p.firstName == users[uid].firstName && p.lastName == users[uid].lastName
    ensures uid !in users ==> p.firstName == "Unknown" && p.lastName == ""
  {
    if uid in users then Peer(Some(users[uid].id), users[uid].firstName, users[uid].lastName)
    else Peer(None, "Unknown", "")
  }

  /** The summary of one counterpart's list: its first row (the newest, given
      the newest-first query) and the number of rows addressed to me and unread. */
  function Summarize(me: UserId, users: map<UserId, Person>, g: Group): (c: Conversation)
    requires g.msgs != []
    ensures c.lastMessage == g.msgs[0].text && c.time == g.msgs[0].createdAt
    ensures c.unread == Count(g.msgs, UnreadFor(me)) && c.unread <= |g.msgs|
    ensures c.user == PeerFor(users, g.key)
  {
    Conversation(PeerFor(users, g.key), g.msgs[0].text, g.msgs[0].createdAt, Count(g.msgs, UnreadFor(me)))
  }

  /** `Promise.all(Object.keys(grouped).map(...))`: one summary per list, in key order. */
  function SummarizeAll(me: UserId, users: map<UserId, Person>, gs: seq<Group>): (cs: seq<Conversation>)
    requires forall i :: 0 <= i < |gs| ==> gs[i].msgs != []
    ensures |cs| == |gs|
    ensures forall i :: 0 <= i < |gs| ==> cs[i] == Summarize(me, users, gs[i])
  {
    seq(|gs|, i requires 0 <= i < |gs| => Summarize(me, users, gs[i]))
  }

  /** The sidebar built from the rows the user sent or received: one entry
      per counterpart, in the order of each counterpart's first row, so on
      the newest-first fetch the first entry is the latest correspondent. */
  function Conversations(me: UserId, users: map<UserId, Person>, fetched: seq<Message>): (cs: seq<Conversation>)
    ensures |cs| == |GroupBy(fetched, ByCounterpart(me))|
    ensures cs == [] <==> fetched == []
    ensures forall i :: 0 <= i < |cs| ==> cs[i].user == PeerFor(users, GroupBy(fetched, ByCounterpart(me))[i].key)
    ensures fetched != [] ==> cs[0].user == PeerFor(users, Counterpart(me, fetched[0]))
  {
    var gs := GroupBy(fetched, ByCounterpart(me));
    assert fetched != [] ==> |gs| > 0 by {
      if fetched != [] {
        assert fetched[0] in fetched;
        assert Find(gs, Counterpart(me, fetched[0])).Some?;
      }
    }
    SummarizeAll(me, users, gs)
  }

  /** The unread counts shown in the sidebar. */
  function UnreadTotal(cs: seq<Conversation>): nat {
    if cs == [] then 0 else cs[0].unread + UnreadTotal(cs[1..])
  }

  lemma {:induction false} UnreadTotalSummaries(me: UserId, users: map<UserId, Person>, gs: seq<Group>)
    requires forall i :: 0 <= i < |gs| ==> gs[i].msgs != []
    ensures UnreadTotal(SummarizeAll(me, users, gs)) == SumCounts(gs, UnreadFor(me))
  {
    if gs != [] {
      UnreadTotalSummaries(me, users, gs[1..]);
      assert SummarizeAll(me, users, gs)[1..] == SummarizeAll(me, users, gs[1..]);
    }
  }

  /** The sidebar's unread counts add up to the number of fetched rows that are
      addressed to me and unread; rows I sent are never counted. */
  lemma ConversationUnreadTotal(me: UserId, users: map<UserId, Person>, fetched: seq<Message>)
    ensures UnreadTotal(Conversations(me, users, fetched)) == Count(fetched, UnreadFor(me))
  {
    var gs := GroupBy(fetched, ByCounterpart(me));
    UnreadTotalSummaries(me, users, gs);
    SumCountsGroupBy(fetched, ByCounterpart(me), UnreadFor(me));
  }

  /** A row I sent to someone else never counts as unread. */
  lemma {:induction false} SentNeverUnread(me: UserId, ms: seq<Message>)
    requires forall m :: m in ms ==> m.sender == me && m.receiver != me
    ensures Count(ms, UnreadFor(me)) == 0
  {
    FilterNone(ms, Counted(UnreadFor(me)));
  }

  /** Each sidebar entry stands for one counterpart: its preview is the newest
      row exchanged with that counterpart when the rows come newest first,
      and its count covers exactly that counterpart's rows. */
  lemma ConversationIsNewest(me: UserId, users: map<UserId, Person>, fetched: seq<Message>, i: nat)
    requires NewestFirst(fetched)
    requires i < |Conversations(me, users, fetched)|
    ensures var g := GroupBy(fetched, ByCounterpart(me))[i];
      var c := Conversations(me, users, fetched)[i];
      && c.user == PeerFor(users, g.key)
      && c.unread == Count(Select(fetched, ByCounterpart(me), g.key), UnreadFor(me))
      && (forall m :: m in fetched && Counterpart(me, m) == g.key ==> c.time >= m.createdAt)
      && (exists m :: m in fetched && Counterpart(me, m) == g.key && c.time == m.createdAt && c.lastMessage == m.text)
  {
    var gs := GroupBy(fetched, ByCounterpart(me));
    var g := gs[i];
    FirstIsNewest(fetched, ByCounterpart(me), i);
    assert g.msgs[0] in g.msgs;
  }

  /** `if (!activePatient && convos.length > 0) setActivePatient(convos[0].user)`. */
  function InitialPeer(active: Option<Peer>, cs: seq<Conversation>): (r: Option<Peer>)
    ensures active.Some? ==> r == active
    ensures active.None? && cs != [] ==> r == Some(cs[0].user)
    ensures active.None? && cs == [] ==> r.None?
  {
    if active.None? && |cs| > 0 then Some(cs[0].user) else active
  }

  /** The sidebar state `fetchConversations` updates. */
  datatype Sidebar = Sidebar(conversations: seq<Conversation>, active: Option<Peer>)

  /** `fetchConversations`: without a profile, or when the fetch gave `null`
      data (the source's `forEach` on `null` throws), nothing changes. */
  function RefreshSidebar(s: Sidebar, me: Option<UserId>, fetched: Option<seq<Message>>, users: map<UserId, Person>): (r: Sidebar)
    ensures me.None? || fetched.None? ==> r == s
    ensures me.Some? && fetched.Some? ==>
      && r.conversations == Conversations(me.value, users, fetched.value)
      && (s.active.Some? ==> r.active == s.active)
      && (s.active.None? && fetched.value != [] ==> r.active == Some(r.conversations[0].user))
      && (s.active.None? && fetched.value != [] ==>
            r.active == Some(PeerFor(users, Counterpart(me.value, fetched.value[0]))))
      && (s.active.None? && fetched.value == [] ==> r.active.None?)
  {
    if me.None? || fetched.None? then s
    else
      var cs := Conversations(me.value, users, fetched.value);
      Sidebar(cs, InitialPeer(s.active, cs))
  }

  /** The sidebar line under a name: the first 25 UTF-16 code units, then "..." if the text is longer. */
  function SidebarPreview(text: string): (r: string)
    ensures Length(text) <= 25 ==> r == text
    ensures Length(text) > 25 ==>
      && |r| >= 3 && r[|r| - 3..] == "..." && CutAt(text, 25, r[..|r| - 3])
      && 24 <= Length(r[..|r| - 3])
    ensures (forall i :: 0 <= i < |text| ==> CodeUnits(text[i]) == 1) ==>
      r == if |text| > 25 then text[..25] + "..." else text
  {
    if forall i :: 0 <= i < |text| ==> CodeUnits(text[i]) == 1 then
      PreviewBmp(text, 25);
      Preview(text, 25)
    else Preview(text, 25)
  }

  // ---------------------------------------------------------------- rooms

  /** `room_staff{a}_patient{b}`: the room id a message from `a` to `b` is filed under. */
  function RoomId(a: UserId, b: UserId): (r: string)
    ensures |r| == |a| + |b| + 18
    ensures r[..10] == "room_staff" && r[10..10 + |a|] == a
    ensures r[10 + |a|..18 + |a|] == "_patient" && r[18 + |a|..] == b
  {
    var r := "room_staff" + a + "_patient" + b;
    assert r[10..10 + |a|] == a;
    assert r[10 + |a|..18 + |a|] == "_patient";
    r
  }

  /** A room id names its two parties: for ids of one length, as the auth
      service's UUIDs are, equal room ids have the same staff side and the
      same patient side. */
  lemma RoomIdParties(a: UserId, b: UserId, c: UserId, d: UserId)
    requires |a| == |c| && RoomId(a, b) == RoomId(c, d)
    ensures a == c && b == d
  {
    var r := RoomId(a, b);
    assert a == r[10..10 + |a|] == c;
    assert b == r[18 + |a|..] == d;
  }

  /** The thread query between me and a counterpart asks for both room ids. */
  predicate InThread(me: UserId, peer: UserId, m: Message) {
    m.room == RoomId(me, peer) || m.room == RoomId(peer, me)
  }

  /** The thread test does not depend on which side opens it. */
  lemma ThreadSymmetric(me: UserId, peer: UserId, m: Message)
    ensures InThread(me, peer, m) <==> InThread(peer, me, m)
  {
  }

  function ThreadTest(me: UserId, peer: UserId): Message -> bool {
    m => InThread(me, peer, m)
  }

  /** The rows the thread query returns. `table` is the `notifications`
      table in the order the query's `created_at` ascending sort delivers it,
      so the thread comes oldest first whenever the table does. */
  function ThreadRows(me: UserId, peer: UserId, table: seq<Message>): (r: seq<Message>)
    ensures forall m :: m in r <==> m in table && InThread(me, peer, m)
    ensures forall m :: multiset(r)[m] == if InThread(me, peer, m) then multiset(table)[m] else 0
    ensures IsSubsequence(r, table)
    ensures OldestFirst(table) ==> OldestFirst(r)
  {
    if OldestFirst(table) then
      FilterOldestFirst(table, ThreadTest(me, peer));
      Filter(table, ThreadTest(me, peer))
    else Filter(table, ThreadTest(me, peer))
  }

  /** Both parties of a thread see the same rows, in the same order. */
  lemma {:induction false} ThreadRowsSymmetric(me: UserId, peer: UserId, table: seq<Message>)
    ensures ThreadRows(me, peer, table) == ThreadRows(peer, me, table)
  {
    if table != [] {
      ThreadRowsSymmetric(me, peer, table[1..]);
    }
  }

  // ---------------------------------------------------------------- mark read

  /** `unread.map(u => u.id)`: ids of the fetched rows addressed to me and unread, in order. */
  function UnreadIds(me: UserId, fetched: seq<Message>): (ids: seq<Option<RowId>>)
    ensures |ids| == Count(fetched, UnreadFor(me))
    ensures forall m :: m in fetched && m.receiver == me && !m.read ==> m.id in ids
    ensures forall x :: x in ids ==> exists m :: m in fetched && m.receiver == me && !m.read && m.id == x
  {
    if fetched == [] then []
    else
      var m := fetched[0];
      var rest := UnreadIds(me, fetched[1..]);
      if m.receiver == me && !m.read then [m.id] + rest else rest
  }

  /** `update({ read_status: true }).in("id", ids)` applied to rows. */
  function MarkRead(rows: seq<Message>, ids: seq<Option<RowId>>): (r: seq<Message>)
    ensures |r| == |rows|
    ensures forall k :: 0 <= k < |rows| ==> (r[k].read <==> rows[k].read || rows[k].id in ids)
    ensures forall k :: 0 <= k < |rows| ==> r[k] == rows[k].(read := r[k].read)
  {
    seq(|rows|, k requires 0 <= k < |rows| => if rows[k].id in ids then rows[k].(read := true) else rows[k])
  }

  /** Row ids are the table's primary key. */
  ghost predicate DistinctIds(rows: seq<Message>) {
    forall j, k :: 0 <= j < k < |rows| && rows[j].id.Some? ==> rows[j].id != rows[k].id
  }

  /** Opening a thread marks read exactly the fetched rows addressed to me;
      every other row, and every other field, stays as it was. */
  lemma OpeningMarksExactlyMine(me: UserId, fetched: seq<Message>)
    requires DistinctIds(fetched)
    requires forall m :: m in fetched ==> m.id.Some?
    ensures var r := MarkRead(fetched, UnreadIds(me, fetched));
      forall k :: 0 <= k < |fetched| ==>
        && r[k].read == (fetched[k].read || fetched[k].receiver == me)
        && r[k] == fetched[k].(read := r[k].read)
  {
    var ids := UnreadIds(me, fetched);
    forall k | 0 <= k < |fetched|
      ensures fetched[k].id in ids ==> fetched[k].read || fetched[k].receiver == me
      ensures fetched[k].receiver == me && !fetched[k].read ==> fetched[k].id in ids
    {
      if fetched[k].id in ids {
        var m :| m in fetched && m.receiver == me && !m.read && m.id == fetched[k].id;
        var j :| 0 <= j < |fetched| && fetched[j] == m;
        assert j == k;
      }
      assert fetched[k] in fetched;
    }
  }

  /** The write `fetchMessages` issues: none when nothing is unread. */
  function ReadWrite(me: UserId, fetched: seq<Message>): (w: Option<seq<Option<RowId>>>)
    ensures w.None? <==> Count(fetched, UnreadFor(me)) == 0
    ensures w.Some? ==> w.value == UnreadIds(me, fetched)
  {
    var ids := UnreadIds(me, fetched);
    if |ids| > 0 then Some(ids) else None
  }

  // ---------------------------------------------------------------- send

  /** The open thread: its rows, the text box, and the counterpart's id. */
  datatype Thread = Thread(messages: seq<Message>, draft: string, peer: Option<UserId>)

  /** The record `sendChatMessage` inserts into `notifications`. */
  datatype Outgoing = Outgoing(text: string, sender: UserId, receiver: UserId, room: string, read: bool)

  /** `sendChatMessage`: a blank draft, or no counterpart, or no profile,
      changes nothing and writes nothing. Otherwise the trimmed text is written
      to the room `room_staff{me}_patient{peer}`, the text box is cleared and
      the row is appended locally (stamped `now`, no id yet). */
  function Send(t: Thread, me: Option<UserId>, now: Timestamp): (r: (Thread, Option<Outgoing>))
    ensures AllSpace(t.draft) || t.peer.None? || me.None? ==> r == (t, None)
    ensures !AllSpace(t.draft) && t.peer.Some? && me.Some? ==>
      var text := Trim(t.draft);
      && r.1 == Some(Outgoing(text, me.value, t.peer.value, RoomId(me.value, t.peer.value), false))
      && r.0.draft == "" && r.0.peer == t.peer
      && |r.0.messages| == |t.messages| + 1
      && r.0.messages[..|t.messages|] == t.messages
      && r.0.messages[|t.messages|] == Message(None, me.value, t.peer.value, RoomId(me.value, t.peer.value), text, false, now)
  {
    TrimEmptyIff(t.draft);
    if Trim(t.draft) == [] || t.peer.None? || me.None? then (t, None)
    else
      var out := Outgoing(Trim(t.draft), me.value, t.peer.value, RoomId(me.value, t.peer.value), false);
      var local := Message(None, out.sender, out.receiver, out.room, out.text, out.read, now);
      assert (t.messages + [local])[..|t.messages|] == t.messages;
      (Thread(t.messages + [local], "", t.peer), Some(out))
  }

  /** A sent message is non-blank, carries no surrounding white space, and
      belongs to the thread both parties query. */
  lemma SentMessageInBothThreads(t: Thread, me: UserId, now: Timestamp)
    requires Send(t, Some(me), now).1.Some?
    ensures var m := Send(t, Some(me), now).0.messages[|t.messages|];
      && m.text != [] && !IsSpace(m.text[0]) && !IsSpace(m.text[|m.text| - 1])
      && InThread(me, t.peer.value, m) && InThread(t.peer.value, me, m)
      && m.sender == me && m.receiver == t.peer.value && !m.read
  {
    assert !AllSpace(t.draft) && t.peer.Some?;
    var peer := t.peer.value;
    TrimEmptyIff(t.draft);
    var text := Trim(t.draft);
    var m := Send(t, Some(me), now).0.messages[|t.messages|];
    assert m == Message(None, me, peer, RoomId(me, peer), text, false, now);
    assert InThread(me, peer, m);
    ThreadSymmetric(me, peer, m);
  }
}

=== FILE: grouping.dfy ===
/**
 The partition-and-count step the chat overlay and both panels run over
 fetched `notifications` rows: `forEach` pushes every row onto the list of
 its key in a plain object, and each list later becomes one summary. The key
 is the sender (staff bell) or the other party of the message (chat sidebar,
 patient bell).
 */
module Grouping {
  import opened Rows
  import opened Lists

  /** The other party of a message, seen from `me`: the receiver of what I sent,
      the sender of anything else. */
  function Counterpart(me: UserId, m: Message): (u: UserId)
    ensures u == m.sender || u == m.receiver
    ensures m.sender == me || m.receiver == me ==> {me, u} == {m.sender, m.receiver}
  {
    if m.sender == me then m.receiver else m.sender
  }

  /** Which key a panel groups its rows by. */
  datatype KeyBy = BySender | ByCounterpart(me: UserId)

  function KeyOf(kb: KeyBy, m: Message): UserId {
    match kb
    case BySender => m.sender
    case ByCounterpart(me) => Counterpart(me, m)
  }

  /** The test "this row belongs to the group keyed `k`". */
  function KeyIs(kb: KeyBy, k: UserId): Message -> bool {
    m => KeyOf(kb, m) == k
  }

  /** The rows whose key is `k`, in fetch order. */
  function Select(ms: seq<Message>, kb: KeyBy, k: UserId): (r: seq<Message>)
    ensures forall m :: m in r ==> m in ms && KeyOf(kb, m) == k
    ensures forall m :: m in ms && KeyOf(kb, m) == k ==> m in r
    ensures IsSubsequence(r, ms)
  {
    Filter(ms, KeyIs(kb, k))
  }

  /** One list of the grouping object: `grouped[key]`. */
  datatype Group = Group(key: UserId, msgs: seq<Message>)

  /** Position of the list keyed `k`, if the object has that key. */
  function Find(gs: seq<Group>, k: UserId): (r: Option<nat>)
    ensures r.Some? ==> r.value < |gs| && gs[r.value].key == k
    ensures r.None? ==> forall i :: 0 <= i < |gs| ==> gs[i].key != k
  {
    if gs == [] then None
    else if gs[0].key == k then Some(0)
    else match Find(gs[1..], k)
      case Some(i) => Some(i + 1)
      case None => None
  }

  /** `if (!grouped[k]) grouped[k] = []; grouped[k].push(m);` -- a new key is
      added after the existing ones, so the keys stay in insertion order. */
  function Push(gs: seq<Group>, k: UserId, m: Message): seq<Group> {
    match Find(gs, k)
    case Some(i) => gs[i := Group(k, gs[i].msgs + [m])]
    case None => gs + [Group(k, [m])]
  }

  /** `ms.forEach(...)` over an object that already holds `gs`. */
  function GroupInto(gs: seq<Group>, ms: seq<Message>, kb: KeyBy): seq<Group>
    decreases |ms|
  {
    if ms == [] then gs
    else GroupInto(Push(gs, KeyOf(kb, ms[0]), ms[0]), ms[1..], kb)
  }

  ghost predicate DistinctKeys(gs: seq<Group>) {
    forall i, j :: 0 <= i < j < |gs| ==> gs[i].key != gs[j].key
  }

  /** `gs` is the grouping of the rows `ms`: one list per key, holding exactly
      the rows of that key in fetch order, and every row's key present. */
  ghost predicate Grouped(gs: seq<Group>, ms: seq<Message>, kb: KeyBy) {
    DistinctKeys(gs) && ListsExact(gs, ms, kb) && Covers(gs, ms, kb)
  }

  /** Every list holds exactly the rows of its key, and none is empty. */
  ghost predicate ListsExact(gs: seq<Group>, ms: seq<Message>, kb: KeyBy) {
    forall i :: 0 <= i < |gs| ==> gs[i].msgs == Select(ms, kb, gs[i].key) && gs[i].msgs != []
  }

  /** Every row's key has a list. */
  ghost predicate Covers(gs: seq<Group>, ms: seq<Message>, kb: KeyBy) {
    forall m :: m in ms ==> Find(gs, KeyOf(kb, m)).Some?
  }

  /** The grouping of the fetched rows, as `forEach` over an empty object builds it. */
  function GroupBy(ms: seq<Message>, kb: KeyBy): (gs: seq<Group>)
    ensures DistinctKeys(gs)
    ensures forall i :: 0 <= i < |gs| ==> gs[i].msgs == Select(ms, kb, gs[i].key) && gs[i].msgs != []
    ensures forall m :: m in ms ==> Find(gs, KeyOf(kb, m)).Some?
    ensures ms != [] ==> |gs| > 0 && gs[0].key == KeyOf(kb, ms[0])
  {
    GroupIntoGrouped([], [], ms, kb);
    assert [] + ms == ms;
    if ms == [] then []
    else
      var first := Push([], KeyOf(kb, ms[0]), ms[0]);
      GroupIntoKeepsKeys(first, ms[1..], kb);
      GroupInto([], ms, kb)
  }

  /** Pushing never moves or renames a list that is already there. */
  lemma PushKeepsKeys(gs: seq<Group>, k: UserId, m: Message)
    ensures var r := Push(gs, k, m);
      |r| >= |gs| && forall i :: 0 <= i < |gs| ==> r[i].key == gs[i].key
  {
  }

  /** The `forEach` keeps the lists the object started with, in their places. */
  lemma {:induction false} GroupIntoKeepsKeys(gs: seq<Group>, ms: seq<Message>, kb: KeyBy)
    ensures var r := GroupInto(gs, ms, kb);
      |r| >= |gs| && forall i :: 0 <= i < |gs| ==> r[i].key == gs[i].key
    decreases |ms|
  {
    if ms != [] {
      var k := KeyOf(kb, ms[0]);
      PushKeepsKeys(gs, k, ms[0]);
      GroupIntoKeepsKeys(Push(gs, k, ms[0]), ms[1..], kb);
    }
  }

  /** Running `forEach` over `a + b` is running it over `a`, then over `b`. */
  lemma {:induction false} GroupIntoAppend(gs: seq<Group>, a: seq<Message>, b: seq<Message>, kb: KeyBy)
    ensures GroupInto(gs, a + b, kb) == GroupInto(GroupInto(gs, a, kb), b, kb)
    decreases |a|
  {
    if a == [] {
      assert a + b == b;
    } else {
      assert (a + b)[0] == a[0];
      assert (a + b)[1..] == a[1..] + b;
      GroupIntoAppend(Push(gs, KeyOf(kb, a[0]), a[0]), a[1..], b, kb);
    }
  }

  /** Keys come in the order of their first row: the lists of any prefix of
      the rows come first in the grouping of all of them, in the same order. */
  lemma GroupByPrefix(ms: seq<Message>, n: nat, kb: KeyBy)
    requires n <= |ms|
    ensures var p := GroupBy(ms[..n], kb); var gs := GroupBy(ms, kb);
      |p| <= |gs| && forall i :: 0 <= i < |p| ==> gs[i].key == p[i].key
  {
    GroupIntoAppend([], ms[..n], ms[n..], kb);
    assert ms[..n] + ms[n..] == ms;
    GroupIntoKeepsKeys(GroupInto([], ms[..n], kb), ms[n..], kb);
  }

  lemma {:induction false} SelectAppend(a: seq<Message>, b: seq<Message>, kb: KeyBy, k: UserId)
    ensures Select(a + b, kb, k) == Select(a, kb, k) + Select(b, kb, k)
  {
    FilterAppend(a, b, KeyIs(kb, k));
  }

  /** One push keeps the object a grouping of the rows seen so far. */
  lemma {:induction false} PushGrouped(gs: seq<Group>, done: seq<Message>, m: Message, kb: KeyBy)
    requires Grouped(gs, done, kb)
    ensures Grouped(Push(gs, KeyOf(kb, m), m), done + [m], kb)
  {
    if Find(gs, KeyOf(kb, m)).Some? {
      PushExisting(gs, done, m, kb);
    } else {
      PushNew(gs, done, m, kb);
    }
  }

  /** Pushing onto an existing list extends exactly that list. */
  lemma {:induction false} PushExisting(gs: seq<Group>, done: seq<Message>, m: Message, kb: KeyBy)
    requires Grouped(gs, done, kb)
    requires Find(gs, KeyOf(kb, m)).Some?
    ensures Grouped(Push(gs, KeyOf(kb, m), m), done + [m], kb)
  {
    var k := KeyOf(kb, m);
    var i := Find(gs, k).value;
    var r := gs[i := Group(k, gs[i].msgs + [m])];
    assert Push(gs, k, m) == r;
    assert DistinctKeys(r) by {
      assert forall j :: 0 <= j < |r| ==> r[j].key == gs[j].key;
    }
    PushExistingLists(gs, done, m, kb, i);
    PushExistingCovers(gs, done, m, kb, i);
  }

  lemma PushExistingLists(gs: seq<Group>, done: seq<Message>, m: Message, kb: KeyBy, i: nat)
    requires DistinctKeys(gs) && ListsExact(gs, done, kb)
    requires i < |gs| && gs[i].key == KeyOf(kb, m)
    ensures ListsExact(gs[i := Group(KeyOf(kb, m), gs[i].msgs + [m])], done + [m], kb)
  {
    var k := KeyOf(kb, m);
    var r := gs[i := Group(k, gs[i].msgs + [m])];
    forall j | 0 <= j < |r|
      ensures r[j].msgs == Select(done + [m], kb, r[j].key) && r[j].msgs != []
    {
      SelectAppend(done, [m], kb, r[j].key);
      SelectSingle(m, kb, r[j].key);
      if j != i {
        assert r[j] == gs[j];
      }
    }
  }

  lemma PushExistingCovers(gs: seq<Group>, done: seq<Message>, m: Message, kb: KeyBy, i: nat)
    requires Covers(gs, done, kb)
    requires i < |gs| && gs[i].key == KeyOf(kb, m)
    ensures Covers(gs[i := Group(KeyOf(kb, m), gs[i].msgs + [m])], done + [m], kb)
  {
    var r := gs[i := Group(KeyOf(kb, m), gs[i].msgs + [m])];
    forall x | x in done + [m]
      ensures Find(r, KeyOf(kb, x)).Some?
    {
      var kx := KeyOf(kb, x);
      if x in done {
        var jx := Find(gs, kx).value;
        assert r[jx].key == kx;
      } else {
        assert r[i].key == kx;
      }
    }
  }

  /** Pushing a row of an unseen key adds one list at the end. */
  lemma {:induction false} PushNew(gs: seq<Group>, done: seq<Message>, m: Message, kb: KeyBy)
    requires Grouped(gs, done, kb)
    requires Find(gs, KeyOf(kb, m)).None?
    ensures Grouped(Push(gs, KeyOf(kb, m), m), done + [m], kb)
  {
    var k := KeyOf(kb, m);
    var r := gs + [Group(k, [m])];
    assert Push(gs, k, m) == r;
    assert DistinctKeys(r) by {
      forall a, b | 0 <= a < b < |r|
        ensures r[a].key != r[b].key
      {
        assert r[a] == gs[a];
        if b < |gs| {
          assert r[b] == gs[b];
        }
      }
    }
    PushNewLists(gs, done, m, kb);
    PushNewCovers(gs, done, m, kb);
  }

  /** The one-row list keeps its row exactly under that row's key. */
  lemma SelectSingle(m: Message, kb: KeyBy, k: UserId)
    ensures Select([m], kb, k) == if KeyOf(kb, m) == k then [m] else []
  {
    assert [m][1..] == [];
  }

  lemma PushNewLists(gs: seq<Group>, done: seq<Message>, m: Message, kb: KeyBy)
    requires ListsExact(gs, done, kb) && Covers(gs, done, kb)
    requires Find(gs, KeyOf(kb, m)).None?
    ensures ListsExact(gs + [Group(KeyOf(kb, m), [m])], done + [m], kb)
  {
    var k := KeyOf(kb, m);
    var r := gs + [Group(k, [m])];
    assert Select(done, kb, k) == [] by {
      forall x | x in done
        ensures KeyOf(kb, x) != k
      {
        assert Find(gs, KeyOf(kb, x)).Some?;
      }
      FilterNone(done, KeyIs(kb, k));
    }
    forall j | 0 <= j < |r|
      ensures r[j].msgs == Select(done + [m], kb, r[j].key) && r[j].msgs != []
    {
      SelectAppend(done, [m], kb, r[j].key);
      SelectSingle(m, kb, r[j].key);
      if j < |gs| {
        assert r[j] == gs[j];
      }
    }
  }

  lemma PushNewCovers(gs: seq<Group>, done: seq<Message>, m: Message, kb: KeyBy)
    requires Covers(gs, done, kb)
    ensures Covers(gs + [Group(KeyOf(kb, m), [m])], done + [m], kb)
  {
    var r := gs + [Group(KeyOf(kb, m), [m])];
    forall x | x in done + [m]
      ensures Find(r, KeyOf(kb, x)).Some?
    {
      var kx := KeyOf(kb, x);
      if x in done {
        var jx := Find(gs, kx).value;
        assert r[jx].key == kx;
      } else {
        assert r[|gs|].key == kx;
      }
    }
  }

  /** The whole `forEach` keeps the object a grouping of the rows seen so far. */
  lemma {:induction false} GroupIntoGrouped(gs: seq<Group>, done: seq<Message>, ms: seq<Message>, kb: KeyBy)
    requires Grouped(gs, done, kb)
    ensures Grouped(GroupInto(gs, ms, kb), done + ms, kb)
    decreases |ms|, 1
  {
    if ms == [] {
      GroupedCongruent(gs, GroupInto(gs, ms, kb), done, done + ms, kb);
    } else {
      GroupIntoGroupedStep(gs, done, ms, kb);
    }
  }

  lemma {:induction false} GroupIntoGroupedStep(gs: seq<Group>, done: seq<Message>, ms: seq<Message>, kb: KeyBy)
    requires Grouped(gs, done, kb) && ms != []
    ensures Grouped(GroupInto(gs, ms, kb), done + ms, kb)
    decreases |ms|, 0
  {
    var g1 := Push(gs, KeyOf(kb, ms[0]), ms[0]);
    var d1 := done + [ms[0]];
    PushGrouped(gs, done, ms[0], kb);
    GroupIntoGrouped(g1, d1, ms[1..], kb);
    MoveFirst(done, ms);
    GroupedCongruent(GroupInto(g1, ms[1..], kb), GroupInto(gs, ms, kb), d1 + ms[1..], done + ms, kb);
  }

  lemma MoveFirst(done: seq<Message>, ms: seq<Message>)
    requires ms != []
    ensures done + [ms[0]] + ms[1..] == done + ms
  {
  }

  lemma GroupedCongruent(gs: seq<Group>, gs': seq<Group>, done: seq<Message>, done': seq<Message>, kb: KeyBy)
    requires Grouped(gs, done, kb) && gs == gs' && done == done'
    ensures Grouped(gs', done', kb)
  {
  }

  /** Every fetched row lies in exactly one list: the one keyed by its own key. */
  lemma {:induction false} ExactlyOneGroup(ms: seq<Message>, kb: KeyBy, m: Message)
    requires m in ms
    ensures var gs := GroupBy(ms, kb);
      && (exists i :: 0 <= i < |gs| && m in gs[i].msgs)
      && (forall i, j :: 0 <= i < |gs| && 0 <= j < |gs| && m in gs[i].msgs && m in gs[j].msgs ==> i == j)
  {
    var gs := GroupBy(ms, kb);
    var i := Find(gs, KeyOf(kb, m)).value;
    assert m in gs[i].msgs;
  }

  /** Which rows a count takes in: all of them, the unread ones, or the unread
      ones addressed to a given user. */
  datatype Tally = Every | Unread | UnreadFor(me: UserId)

  predicate Counts(t: Tally, m: Message) {
    match t
    case Every => true
    case Unread => !m.read
    case UnreadFor(me) => m.receiver == me && !m.read
  }

  function Counted(t: Tally): Message -> bool {
    m => Counts(t, m)
  }

  /** `ms.filter(...).length` for the test of the tally. */
  function Count(ms: seq<Message>, t: Tally): nat {
    |Filter(ms, Counted(t))|
  }

  lemma {:induction false} CountAppend(a: seq<Message>, b: seq<Message>, t: Tally)
    ensures Count(a + b, t) == Count(a, t) + Count(b, t)
  {
    FilterAppend(a, b, Counted(t));
  }

  /** Counting every row gives the number of rows. */
  lemma {:induction false} CountEvery(ms: seq<Message>)
    ensures Count(ms, Every) == |ms|
  {
    FilterKeepsAll(ms, Counted(Every));
  }

  /** The counts of the lists, added up over the object. */
  function SumCounts(gs: seq<Group>, t: Tally): nat {
    if gs == [] then 0 else Count(gs[0].msgs, t) + SumCounts(gs[1..], t)
  }

  lemma {:induction false} SumCountsAppend(gs: seq<Group>, g: Group, t: Tally)
    ensures SumCounts(gs + [g], t) == SumCounts(gs, t) + Count(g.msgs, t)
  {
    if gs != [] {
      assert (gs + [g])[1..] == gs[1..] + [g];
      SumCountsAppend(gs[1..], g, t);
    }
  }

  lemma {:induction false} SumCountsUpdate(gs: seq<Group>, i: nat, g: Group, t: Tally)
    requires i < |gs|
    ensures SumCounts(gs[i := g], t) + Count(gs[i].msgs, t) == SumCounts(gs, t) + Count(g.msgs, t)
  {
    if i > 0 {
      assert gs[i := g][1..] == gs[1..][i - 1 := g];
      SumCountsUpdate(gs[1..], i - 1, g, t);
    } else {
      assert gs[i := g][1..] == gs[1..];
    }
  }

  /** One push adds the new row's count to the total. */
  lemma SumCountsPush(gs: seq<Group>, k: UserId, m: Message, t: Tally)
    ensures SumCounts(Push(gs, k, m), t) == SumCounts(gs, t) + Count([m], t)
  {
    match Find(gs, k)
    case Some(i) =>
      SumCountsUpdate(gs, i, Group(k, gs[i].msgs + [m]), t);
      CountAppend(gs[i].msgs, [m], t);
    case None =>
      SumCountsAppend(gs, Group(k, [m]), t);
  }

  /** The count of a non-empty list is its first row's count plus the rest's. */
  lemma CountCons(ms: seq<Message>, t: Tally)
    requires ms != []
    ensures Count(ms, t) == Count([ms[0]], t) + Count(ms[1..], t)
  {
    CountAppend([ms[0]], ms[1..], t);
    assert [ms[0]] + ms[1..] == ms;
  }

  lemma {:induction false} SumCountsGroupInto(gs: seq<Group>, ms: seq<Message>, kb: KeyBy, t: Tally)
    ensures SumCounts(GroupInto(gs, ms, kb), t) == SumCounts(gs, t) + Count(ms, t)
    decreases |ms|
  {
    if ms != [] {
      var m := ms[0];
      var k := KeyOf(kb, m);
      var g1 := Push(gs, k, m);
      SumCountsPush(gs, k, m, t);
      SumCountsGroupInto(g1, ms[1..], kb, t);
      CountCons(ms, t);
    }
  }

  /** The per-list counts add up to the count over all fetched rows: the
      badge total is the number of counted rows, whatever the key. */
  lemma {:induction false} SumCountsGroupBy(ms: seq<Message>, kb: KeyBy, t: Tally)
    ensures SumCounts(GroupBy(ms, kb), t) == Count(ms, t)
  {
    SumCountsGroupInto([], ms, kb, t);
  }

  /** The lists' lengths add up to the number of fetched rows. */
  lemma {:induction false} GroupSizesPartition(ms: seq<Message>, kb: KeyBy)
    ensures SumCounts(GroupBy(ms, kb), Every) == |ms|
  {
    SumCountsGroupBy(ms, kb, Every);
    CountEvery(ms);
  }

  /** Two keyings that agree on every row group the rows identically; in
      particular grouping received rows by sender is grouping them by
      counterpart. */
  lemma {:induction false} GroupIntoSameKeys(gs: seq<Group>, ms: seq<Message>, kb1: KeyBy, kb2: KeyBy)
    requires forall m :: m in ms ==> KeyOf(kb1, m) == KeyOf(kb2, m)
    ensures GroupInto(gs, ms, kb1) == GroupInto(gs, ms, kb2)
    decreases |ms|
  {
    if ms != [] {
      assert ms[0] in ms;
      assert forall m :: m in ms[1..] ==> m in ms;
      GroupIntoSameKeys(Push(gs, KeyOf(kb1, ms[0]), ms[0]), ms[1..], kb1, kb2);
    }
  }

  /** Rows all addressed to `me` are grouped alike by sender and by counterpart. */
  lemma {:induction false} ReceivedBySenderIsByCounterpart(ms: seq<Message>, me: UserId)
    requires forall m :: m in ms ==> m.receiver == me
    ensures GroupBy(ms, BySender) == GroupBy(ms, ByCounterpart(me))
  {
    GroupIntoSameKeys([], ms, BySender, ByCounterpart(me));
  }

  /** The head of a newest-first list is at least as new as the rest, which is newest first too. */
  lemma TailNewestFirst(ms: seq<Message>)
    requires NewestFirst(ms) && ms != []
    ensures NewestFirst(ms[1..])
    ensures forall x :: x in ms[1..] ==> ms[0].createdAt >= x.createdAt
  {
    forall x | x in ms[1..]
      ensures ms[0].createdAt >= x.createdAt
    {
      var j :| 0 <= j < |ms[1..]| && ms[1..][j] == x;
      assert ms[j + 1] == x;
    }
  }

  /** The head of an oldest-first list is at most as new as the rest, which is oldest first too. */
  lemma TailOldestFirst(ms: seq<Message>)
    requires OldestFirst(ms) && ms != []
    ensures OldestFirst(ms[1..])
    ensures forall x :: x in ms[1..] ==> ms[0].createdAt <= x.createdAt
  {
    forall x | x in ms[1..]
      ensures ms[0].createdAt <= x.createdAt
    {
      var j :| 0 <= j < |ms[1..]| && ms[1..][j] == x;
      assert ms[j + 1] == x;
    }
  }

  /** A row at least as new as every row of a newest-first list can go in front of it. */
  lemma ConsNewestFirst(a: Message, s: seq<Message>)
    requires NewestFirst(s)
    requires forall x :: x in s ==> a.createdAt >= x.createdAt
    ensures NewestFirst([a] + s)
  {
    forall i, j | 0 <= i < j < |s| + 1
      ensures ([a] + s)[i].createdAt >= ([a] + s)[j].createdAt
    {
      assert ([a] + s)[j] == s[j - 1];
      if i == 0 {
        assert s[j - 1] in s;
      } else {
        assert ([a] + s)[i] == s[i - 1];
      }
    }
  }

  /** A row at most as new as every row of an oldest-first list can go in front of it. */
  lemma ConsOldestFirst(a: Message, s: seq<Message>)
    requires OldestFirst(s)
    requires forall x :: x in s ==> a.createdAt <= x.createdAt
    ensures OldestFirst([a] + s)
  {
    forall i, j | 0 <= i < j < |s| + 1
      ensures ([a] + s)[i].createdAt <= ([a] + s)[j].createdAt
    {
      assert ([a] + s)[j] == s[j - 1];
      if i == 0 {
        assert s[j - 1] in s;
      } else {
        assert ([a] + s)[i] == s[i - 1];
      }
    }
  }

  /** A filter of newest-first rows is newest first. */
  lemma {:induction false} FilterNewestFirst(ms: seq<Message>, p: Message -> bool)
    requires NewestFirst(ms)
    ensures NewestFirst(Filter(ms, p))
  {
    if ms != [] {
      TailNewestFirst(ms);
      FilterNewestFirst(ms[1..], p);
      var rest := Filter(ms[1..], p);
      if p(ms[0]) {
        ConsNewestFirst(ms[0], rest);
      }
    }
  }

  /** A filter of oldest-first rows is oldest first. */
  lemma {:induction false} FilterOldestFirst(ms: seq<Message>, p: Message -> bool)
    requires OldestFirst(ms)
    ensures OldestFirst(Filter(ms, p))
  {
    if ms != [] {
      TailOldestFirst(ms);
      FilterOldestFirst(ms[1..], p);
      var rest := Filter(ms[1..], p);
      if p(ms[0]) {
        ConsOldestFirst(ms[0], rest);
      }
    }
  }

  /** With newest-first rows, the first row of each list is the newest of its list. */
  lemma {:induction false} FirstIsNewest(ms: seq<Message>, kb: KeyBy, i: nat)
    requires NewestFirst(ms)
    requires i < |GroupBy(ms, kb)|
    ensures var g := GroupBy(ms, kb)[i];
      forall m :: m in g.msgs ==> g.msgs[0].createdAt >= m.createdAt
  {
    var g := GroupBy(ms, kb)[i];
    FilterNewestFirst(ms, KeyIs(kb, g.key));
  }

  /** With oldest-first rows, the last row of each list is the newest of its list. */
  lemma {:induction false} LastIsNewest(ms: seq<Message>, kb: KeyBy, i: nat)
    requires OldestFirst(ms)
    requires i < |GroupBy(ms, kb)|
    ensures var g := GroupBy(ms, kb)[i];
      forall m :: m in g.msgs ==> g.msgs[|g.msgs| - 1].createdAt >= m.createdAt
  {
    var g := GroupBy(ms, kb)[i];
    FilterOldestFirst(ms, KeyIs(kb, g.key));
  }
}

=== FILE: lists.dfy ===
/**
 Sequence operations shared by the panels: JavaScript's `Array.prototype.filter`
 and the order-preserving subsequence relation it establishes.
 */
module Lists {

  /** `s.filter(p)`: the elements of `s` that satisfy `p`, in their original order. */
  function Filter<T(==)>(s: seq<T>, p: T -> bool): (r: seq<T>)
    ensures |r| <= |s|
    ensures forall x :: x in r ==> x in s && p(x)
    ensures forall x :: x in s && p(x) ==> x in r
    ensures forall x {:trigger multiset(r)[x]} :: x in s ==> multiset(r)[x] == if p(x) then multiset(s)[x] else 0
    ensures IsSubsequence(r, s)
  {
    if s == [] then []
    else
      var rest := Filter(s[1..], p);
      assert [s[0]] + s[1..] == s;
      assert multiset(s) == multiset{s[0]} + multiset(s[1..]);
      if p(s[0]) then
        assert multiset([s[0]] + rest) == multiset{s[0]} + multiset(rest);
        [s[0]] + rest
      else
        SubsequenceCons(rest, s[1..], s[0]);
        rest
  }

  /** `a` can be obtained from `b` by deleting elements; the rest keep their order. */
  predicate IsSubsequence<T(==)>(a: seq<T>, b: seq<T>)
    decreases |b|
  {
    if a == [] then true
    else if b == [] then false
    else if a[0] == b[0] then IsSubsequence(a[1..], b[1..])
    else IsSubsequence(a, b[1..])
  }

  /** Dropping the first element of a subsequence keeps it a subsequence. */
  lemma {:induction false} SubsequenceTail<T>(a: seq<T>, b: seq<T>)
    requires a != [] && IsSubsequence(a, b)
    ensures IsSubsequence(a[1..], b)
    decreases |b|, 0
  {
    if a[0] == b[0] {
      SubsequenceCons(a[1..], b[1..], b[0]);
      assert [b[0]] + b[1..] == b;
    } else {
      SubsequenceTail(a, b[1..]);
      SubsequenceCons(a[1..], b[1..], b[0]);
      assert [b[0]] + b[1..] == b;
    }
  }

  /** Adding an element in front of the longer sequence keeps a subsequence one. */
  lemma {:induction false} SubsequenceCons<T>(a: seq<T>, b: seq<T>, x: T)
    requires IsSubsequence(a, b)
    ensures IsSubsequence(a, [x] + b)
    decreases |b|, 1
  {
    var xb := [x] + b;
    assert xb[1..] == b;
    if a != [] && a[0] == x {
      SubsequenceTail(a, b);
    }
  }

  /** Filtering distributes over concatenation, which is what `forEach` over a
      growing list relies on. */
  lemma {:induction false} FilterAppend<T>(a: seq<T>, b: seq<T>, p: T -> bool)
    ensures Filter(a + b, p) == Filter(a, p) + Filter(b, p)
  {
    if a == [] {
      assert a + b == b;
    } else {
      var ab := a + b;
      assert ab[0] == a[0];
      assert ab[1..] == a[1..] + b;
      FilterAppend(a[1..], b, p);
    }
  }

  /** A filter every element passes is the identity. */
  lemma {:induction false} FilterKeepsAll<T>(s: seq<T>, p: T -> bool)
    requires forall x :: x in s ==> p(x)
    ensures Filter(s, p) == s
  {
    if s != [] {
      assert forall x :: x in s[1..] ==> x in s;
      FilterKeepsAll(s[1..], p);
    }
  }

  /** Two filters in a row are one filter by the conjunction. */
  lemma {:induction false} FilterFilter<T>(s: seq<T>, p: T -> bool, q: T -> bool, pq: T -> bool)
    requires forall x :: pq(x) == (p(x) && q(x))
    ensures Filter(Filter(s, p), q) == Filter(s, pq)
  {
    if s != [] {
      FilterFilter(s[1..], p, q, pq);
    }
  }

  /** Filters with the same test on every value give the same result. */
  lemma {:induction false} FilterSameTest<T>(s: seq<T>, p: T -> bool, q: T -> bool)
    requires forall x :: p(x) == q(x)
    ensures Filter(s, p) == Filter(s, q)
  {
    if s != [] {
      FilterSameTest(s[1..], p, q);
    }
  }

  /** A filter no element passes is empty. */
  lemma FilterNone<T>(s: seq<T>, p: T -> bool)
    requires forall x :: x in s ==> !p(x)
    ensures Filter(s, p) == []
  {
  }
}

=== FILE: login.dfy ===
/**
 The standalone login page (src/pages/Login.js): one identifier field that
 takes an email address or a phone number, and a password.
 */
module Login {
  import opened Rows
  import opened Text
  import opened Session
  import AuthForm

  /** The credentials handed to the password sign-in. */
  datatype Credentials = ByEmail(email: string, password: string) | ByPhone(phone: string, password: string)

  /** An identifier containing "@" is an email address; anything else is a phone number. */
  function CredentialsFor(identifier: string, password: string): (c: Credentials)
    ensures c.ByEmail? <==> '@' in identifier
    ensures c == ByEmail(identifier, password) || c == ByPhone(identifier, password)
  {
    ContainsChar(identifier, '@');
    if Contains(identifier, "@") then ByEmail(identifier, password) else ByPhone(identifier, password)
  }

  /** The message when the profile lookup after sign-in finds no row. */
  const NotFound := "User not found in database."

  /** What a submission did: the credentials it sent, the message shown and
      the navigation, if any. */
  datatype Attempt = Attempt(credentials: Credentials, message: string, nav: Option<Navigation>)

  /** `handleLogin`. Both inputs carry the `required` attribute, so the
      browser does not submit the form while either is empty (`None`). */
  function HandleLogin(identifier: string, password: string, reply: SignInReply,
                       profiles: map<UserId, UserRecord>): (r: Option<Attempt>)
    ensures r.None? <==> identifier == "" || password == ""
    ensures r.Some? ==> r.value.credentials == CredentialsFor(identifier, password)
    ensures r.Some? && reply.SignInFailed? ==> r.value.message == reply.error && r.value.nav.None?
    ensures r.Some? && reply.SignedIn? && reply.userId !in profiles ==>
      r.value.message == NotFound && r.value.nav.None?
    ensures r.Some? ==> (r.value.nav.Some? <==> reply.SignedIn? && reply.userId in profiles)
    ensures r.Some? && r.value.nav.Some? ==>
      && r.value.message == ""
      && r.value.nav.value.profile == profiles[reply.userId]
      && (r.value.nav.value.route == StaffPanelRoute <==> profiles[reply.userId].role == "staff")
  {
    if identifier == "" || password == "" then None
    else
      var c := CredentialsFor(identifier, password);
      match Land(reply, profiles, NotFound)
      case Refused(m) => Some(Attempt(c, m, None))
      case Navigated(n) => Some(Attempt(c, "", Some(n)))
  }

  /** This page's identifier is a plain text input, so the browser checks no
      address here; the combined form signs in only with an address the
      browser accepts. When it does, for the same sign-in answer and profiles
      both land on the same panel with the same profile, and they differ only
      in the words of the not-found message. */
  lemma SameLandingAsAuthForm(email: string, password: string, reply: SignInReply,
                              profiles: map<UserId, UserRecord>, p: AuthForm.Page,
                              emailValid: string -> bool, signUp: AuthForm.SignUpReply)
    requires email != "" && password != ""
    requires !p.isRegister && p.form.email == email && p.form.password == password
    ensures var mine := HandleLogin(email, password, reply, profiles);
      var theirs := AuthForm.Submit(p, emailValid, signUp, None, reply, profiles);
      && mine.Some?
      && (theirs.signIn.Some? <==> emailValid(email))
      && (emailValid(email) ==>
            && theirs.signIn == Some((email, password))
            && mine.value.nav == theirs.nav
            && (mine.value.message == theirs.page.message <==>
                  !(reply.SignedIn? && reply.userId !in profiles)))
  {
  }
}

=== FILE: patient_panel.dfy ===
/**
 The patient panel (src/pages/PatientPanel.js): the staff search of the
 booking dialog, the notification bell that summarises conversations per
 staff member, and saving a booking.
 */
module PatientPanel {
  import opened Rows
  import opened Lists
  import opened Text
  import opened Grouping
  import opened Appointments
  import Chat

  // ---------------------------------------------------------------- staff search

  /** A `users` row with role "staff" as the booking dialog lists it. */
  datatype Staff = Staff(id: UserId, firstName: string, lastName: string, position: Option<string>)

  /** A template literal writes a missing position as "null". */
  function PositionText(p: Option<string>): string {
    if p.Some? then p.value else "null"
  }

  /** The text the search runs over: first name, last name and position, space separated. */
  function SearchLine(s: Staff): string {
    s.firstName + " " + s.lastName + " " + PositionText(s.position)
  }

  /** Case-insensitive (ASCII) substring test of the search text against the search line. */
  predicate StaffMatches(s: Staff, search: string) {
    Contains(ToLower(SearchLine(s)), ToLower(search))
  }

  function StaffTest(search: string): Staff -> bool {
    s => StaffMatches(s, search)
  }

  /** The staff list shown in the dialog: the fetched staff that match, in
      fetched order; an empty search shows everyone. */
  function FilterStaff(list: seq<Staff>, search: string): (r: seq<Staff>)
    ensures forall s :: s in r ==> s in list && StaffMatches(s, search)
    ensures forall s :: s in list && StaffMatches(s, search) ==> s in r
    ensures IsSubsequence(r, list)
    ensures search == "" ==> r == list
    ensures r == Filter(list, StaffTest(search))
  {
    var r := Filter(list, StaffTest(search));
    assert search == "" ==> r == list by {
      if search == "" {
        forall s | s in list
          ensures StaffTest(search)(s)
        {
          ContainsEmpty(ToLower(SearchLine(s)));
        }
        FilterKeepsAll(list, StaffTest(search));
      }
    }
    r
  }

  /** Typing more only narrows the list: whoever matches `a + b` matches `a`. */
  lemma SearchNarrows(list: seq<Staff>, a: string, b: string)
    ensures forall s :: s in FilterStaff(list, a + b) ==> s in FilterStaff(list, a)
  {
    ToLowerAppend(a, b);
    forall s | s in FilterStaff(list, a + b)
      ensures StaffMatches(s, a)
    {
      ContainsPrefix(ToLower(SearchLine(s)), ToLower(a), ToLower(b));
    }
  }

  /** Searching for (part of) a staff member's position finds them. */
  lemma PositionMatches(s: Staff, search: string)
    requires s.position.Some? && Contains(ToLower(s.position.value), ToLower(search))
    ensures StaffMatches(s, search)
  {
    var head := s.firstName + " " + s.lastName + " ";
    assert SearchLine(s) == head + s.position.value;
    ToLowerAppend(head, s.position.value);
    ContainsInSuffix(ToLower(head), ToLower(s.position.value), ToLower(search));
  }

  /** A staff member without a position matches the search "null", because
      the missing value is written into the search line as that word. */
  lemma MissingPositionMatchesNull(s: Staff)
    requires s.position.None?
    ensures StaffMatches(s, "null")
  {
    var head := s.firstName + " " + s.lastName + " ";
    assert SearchLine(s) == head + "null";
    ToLowerAppend(head, "null");
    assert ToLower("null") == "null";
    assert StartsWith("null", "null");
    ContainsInSuffix(ToLower(head), "null", "null");
  }

  // ---------------------------------------------------------------- bell

  /** Stable insertion of `m` before the first row that is not newer. */
  function Insert(m: Message, sorted: seq<Message>): (r: seq<Message>)
    ensures |r| == |sorted| + 1
    ensures multiset(r) == multiset(sorted) + multiset{m}
  {
    if sorted == [] || m.createdAt >= sorted[0].createdAt then [m] + sorted
    else
      assert sorted == [sorted[0]] + sorted[1..];
      [sorted[0]] + Insert(m, sorted[1..])
  }

  /** Insertion keeps a list newest first. */
  lemma {:induction false} InsertNewestFirst(m: Message, sorted: seq<Message>)
    requires NewestFirst(sorted)
    ensures NewestFirst(Insert(m, sorted))
    decreases |sorted|
  {
    if sorted == [] || m.createdAt >= sorted[0].createdAt {
      forall x | x in sorted
        ensures m.createdAt >= x.createdAt
      {
        var j :| 0 <= j < |sorted| && sorted[j] == x;
        if j > 0 {
          assert sorted[0].createdAt >= sorted[j].createdAt;
        }
      }
      ConsNewestFirst(m, sorted);
    } else {
      var tail := sorted[1..];
      assert NewestFirst(tail) by {
        forall i, j | 0 <= i < j < |tail|
          ensures tail[i].createdAt >= tail[j].createdAt
        {
          assert tail[i] == sorted[i + 1] && tail[j] == sorted[j + 1];
        }
      }
      InsertNewestFirst(m, tail);
      var rest := Insert(m, tail);
      forall x | x in rest
        ensures sorted[0].createdAt >= x.createdAt
      {
        assert x in multiset(rest);
        if x != m {
          assert x in multiset(tail);
          var j :| 0 <= j < |tail| && tail[j] == x;
          assert sorted[j + 1] == x;
        }
      }
      ConsNewestFirst(sorted[0], rest);
    }
  }

  /** `msgs.sort((a, b) => b.created_at - a.created_at)`: a stable sort,
      newest first. */
  function SortNewest(ms: seq<Message>): (r: seq<Message>)
    ensures NewestFirst(r)
    ensures multiset(r) == multiset(ms)
  {
    if ms == [] then []
    else
      var t := SortNewest(ms[1..]);
      InsertNewestFirst(ms[0], t);
      MultisetCons(ms);
      Insert(ms[0], t)
  }

  lemma MultisetCons(ms: seq<Message>)
    requires ms != []
    ensures multiset(ms) == multiset(ms[1..]) + multiset{ms[0]}
  {
    assert ms == [ms[0]] + ms[1..];
  }

  /** On rows already newest first, as the query returns them, the sort
      changes nothing. */
  lemma {:induction false} SortNewestKeepsSorted(ms: seq<Message>)
    requires NewestFirst(ms)
    ensures SortNewest(ms) == ms
  {
    if ms != [] {
      SortNewestKeepsSorted(ms[1..]);
      assert [ms[0]] + ms[1..] == ms;
    }
  }

  /** One bell entry. `user` is the looked-up `users` row spread into the
      entry; when the lookup finds none the entry has no id or name. */
  datatype StaffSummary = StaffSummary(user: Option<Person>, lastMessage: string, lastTime: Timestamp, unread: nat)

  /** The summary of the conversation with one counterpart: the newest
      message and the count of unread ones addressed to me. */
  function SummarizeStaff(me: UserId, users: map<UserId, Person>, g: Group): (s: StaffSummary)
    requires g.msgs != []
    ensures s.user == (if g.key in users then Some(users[g.key]) else None)
    ensures s.unread == Count(g.msgs, UnreadFor(me))
    ensures forall m :: m in g.msgs ==> s.lastTime >= m.createdAt
    ensures exists m :: m in g.msgs && m.text == s.lastMessage && m.createdAt == s.lastTime
  {
    var sorted := SortNewest(g.msgs);
    var last := sorted[0];
    assert last in multiset(g.msgs);
    assert forall m :: m in g.msgs ==> last.createdAt >= m.createdAt by {
      forall m | m in g.msgs
        ensures last.createdAt >= m.createdAt
      {
        assert m in multiset(sorted);
        var j :| 0 <= j < |sorted| && sorted[j] == m;
        if j != 0 {
          assert sorted[0].createdAt >= sorted[j].createdAt;
        }
      }
    }
    StaffSummary(
      if g.key in users then Some(users[g.key]) else None,
      last.text,
      last.createdAt,
      Count(g.msgs, UnreadFor(me)))
  }

  function SummarizeAllStaff(me: UserId, users: map<UserId, Person>, gs: seq<Group>): (ss: seq<StaffSummary>)
    requires forall i :: 0 <= i < |gs| ==> gs[i].msgs != []
    ensures |ss| == |gs|
    ensures forall i :: 0 <= i < |gs| ==> ss[i] == SummarizeStaff(me, users, gs[i])
  {
    seq(|gs|, i requires 0 <= i < |gs| => SummarizeStaff(me, users, gs[i]))
  }

  /** `summaries.reduce((s, i) => s + i.unread_count, 0)`. */
  function BadgeTotal(ss: seq<StaffSummary>): nat {
    if ss == [] then 0 else ss[0].unread + BadgeTotal(ss[1..])
  }

  lemma {:induction false} BadgeTotalSummaries(me: UserId, users: map<UserId, Person>, gs: seq<Group>)
    requires forall i :: 0 <= i < |gs| ==> gs[i].msgs != []
    ensures BadgeTotal(SummarizeAllStaff(me, users, gs)) == SumCounts(gs, UnreadFor(me))
  {
    if gs != [] {
      BadgeTotalSummaries(me, users, gs[1..]);
      assert SummarizeAllStaff(me, users, gs)[1..] == SummarizeAllStaff(me, users, gs[1..]);
    }
  }

  /** The bell: its entries and the badge number. */
  datatype Bell = Bell(summaries: seq<StaffSummary>, count: nat)

  /** `fetchUnreadNotifications` over every row I sent or received. Without a
      profile, or when the query reports an error, the bell is kept. Otherwise
      there is one entry per counterpart and the badge counts the unread rows
      addressed to me. */
  function RefreshBell(b: Bell, me: Option<UserId>, fetched: Option<seq<Message>>, users: map<UserId, Person>): (r: Bell)
    ensures me.None? || fetched.None? ==> r == b
    ensures me.Some? && fetched.Some? ==>
      && r.summaries == SummarizeAllStaff(me.value, users, GroupBy(fetched.value, ByCounterpart(me.value)))
      && r.count == BadgeTotal(r.summaries)
      && r.count == Count(fetched.value, UnreadFor(me.value))
  {
    if me.None? || fetched.None? then b
    else
      var gs := GroupBy(fetched.value, ByCounterpart(me.value));
      var ss := SummarizeAllStaff(me.value, users, gs);
      BadgeTotalSummaries(me.value, users, gs);
      SumCountsGroupBy(fetched.value, ByCounterpart(me.value), UnreadFor(me.value));
      Bell(ss, BadgeTotal(ss))
  }

  /** On rows newest first, the patient's bell shows the same last message,
      time and unread count per counterpart as the chat sidebar, and the same
      total. */
  lemma BellAgreesWithChat(b: Bell, me: UserId, fetched: seq<Message>, users: map<UserId, Person>, i: nat)
    requires NewestFirst(fetched)
    requires i < |GroupBy(fetched, ByCounterpart(me))|
    ensures var r := RefreshBell(b, Some(me), Some(fetched), users);
      var c := Chat.Conversations(me, users, fetched);
      && r.count == Chat.UnreadTotal(c)
      && r.summaries[i].lastMessage == c[i].lastMessage
      && r.summaries[i].lastTime == c[i].time
      && r.summaries[i].unread == c[i].unread
  {
    var gs := GroupBy(fetched, ByCounterpart(me));
    var g := gs[i];
    Chat.ConversationUnreadTotal(me, users, fetched);
    FilterNewestFirst(fetched, KeyIs(ByCounterpart(me), g.key));
    SortNewestKeepsSorted(g.msgs);
  }

  /** The entry's message line: the first 50 UTF-16 code units, then "..." if the text is longer. */
  function BellPreview(text: string): (r: string)
    ensures Length(text) <= 50 ==> r == text
    ensures Length(text) > 50 ==>
      && |r| >= 3 && r[|r| - 3..] == "..." && CutAt(text, 50, r[..|r| - 3])
      && 49 <= Length(r[..|r| - 3])
    ensures (forall i :: 0 <= i < |text| ==> CodeUnits(text[i]) == 1) ==>
      r == if |text| > 50 then text[..50] + "..." else text
  {
    if forall i :: 0 <= i < |text| ==> CodeUnits(text[i]) == 1 then
      PreviewBmp(text, 50);
      Preview(text, 50)
    else Preview(text, 50)
  }

  // ---------------------------------------------------------------- booking

  /** The booking dialog: open or not, the picked staff member and the date text. */
  datatype Booking = Booking(open: bool, staff: Option<Staff>, date: string)

  /** Clicking a staff entry selects it. */
  function Pick(b: Booking, s: Staff): (r: Booking)
    ensures r.staff == Some(s) && r.open == b.open && r.date == b.date
  {
    b.(staff := Some(s))
  }

  /** The `appointments` row a booking inserts. */
  datatype NewAppointment = NewAppointment(patient: UserId, staff: UserId, date: string, status: Status)

  /** What saving did: the dialog after it, the row written (if any) and the alert (if any). */
  datatype Saved = Saved(booking: Booking, written: Option<NewAppointment>, alert: Option<string>)

  /** `saveAppointment`. Without a staff member or a date it only alerts.
      The date text goes through `toIso` (no value: the conversion throws
      and nothing happens). A failed insert alerts and keeps the dialog; a
      successful one closes it and clears the selection and the date. */
  function SaveAppointment(b: Booking, me: UserId, toIso: string -> Option<string>, insertFails: bool): (r: Saved)
    ensures b.staff.None? || b.date == "" ==> r == Saved(b, None, Some("Please select staff and date."))
    ensures r.written.Some? <==> b.staff.Some? && b.date != "" && toIso(b.date).Some? && !insertFails
    ensures r.written.Some? ==>
      && r.written.value == NewAppointment(me, b.staff.value.id, toIso(b.date).value, Pending)
      && r.booking == Booking(false, None, "") && r.alert.None?
    ensures r.written.None? ==> r.booking == b
    ensures b.staff.Some? && b.date != "" && toIso(b.date).Some? && insertFails ==>
      r.alert == Some("Saving failed.")
  {
    if b.staff.None? || b.date == "" then Saved(b, None, Some("Please select staff and date."))
    else
      var iso := toIso(b.date);
      if iso.None? then Saved(b, None, None)
      else if insertFails then Saved(b, None, Some("Saving failed."))
      else Saved(Booking(false, None, ""), Some(NewAppointment(me, b.staff.value.id, iso.value, Pending)), None)
  }

  /** A successful save clears the selection and the date, so pressing Save
      again writes nothing and only asks for them: one click books once. */
  lemma SaveTwiceBooksOnce(b: Booking, me: UserId, toIso: string -> Option<string>, insertFails: bool,
                           toIso2: string -> Option<string>, insertFails2: bool)
    requires SaveAppointment(b, me, toIso, insertFails).written.Some?
    ensures var after := SaveAppointment(b, me, toIso, insertFails).booking;
      SaveAppointment(after, me, toIso2, insertFails2) == Saved(after, None, Some("Please select staff and date."))
  {
  }

  /** Picking a staff member and saving a date that converts books that
      staff member, at the converted date, as pending. */
  lemma PickThenSaveBooksPicked(b: Booking, s: Staff, me: UserId, toIso: string -> Option<string>)
    requires b.date != "" && toIso(b.date).Some?
    ensures SaveAppointment(Pick(b, s), me, toIso, false).written ==
      Some(NewAppointment(me, s.id, toIso(b.date).value, Pending))
  {
  }
}

=== FILE: rows.dfy ===
/**
 Rows of the clinic's remote tables as the client reads and writes them.
 The backend is not modelled: a fetch is a sequence of these rows, a lookup
 is a map from id to row, and a write is a record the client hands over.
 */
module Rows {

  /** A value that may be absent (`null`/`undefined` in the client). */
  datatype Option<+T> = None | Some(value: T)

  /** User ids are the backend's string ids (UUIDs of the auth service). */
  type UserId = string

  /** Ids of rows in the `notifications` and `appointments` tables. */
  type RowId = string

  /** A `created_at` instant; only its order matters to the client. */
  type Timestamp = int

  /** A row of the `notifications` table: one chat message. A message appended
      locally before the insert completes has no id yet. */
  datatype Message = Message(
    id: Option<RowId>,
    sender: UserId,
    receiver: UserId,
    room: string,
    text: string,
    read: bool,
    createdAt: Timestamp)

  /** The `id, first_name, last_name` projection of a `users` row. */
  datatype Person = Person(id: UserId, firstName: string, lastName: string)

  /** A full `users` row, as registration inserts it and login reads it back. */
  datatype UserRecord = UserRecord(
    id: UserId,
    firstName: string,
    lastName: string,
    email: string,
    role: string,
    position: Option<string>,
    verified: bool)

  /** Messages ordered newest first, as a query ordered by `created_at`
      descending returns them. */
  predicate NewestFirst(ms: seq<Message>) {
    forall i, j :: 0 <= i < j < |ms| ==> ms[i].createdAt >= ms[j].createdAt
  }

  /** Messages ordered oldest first, as a query ordered by `created_at`
      ascending returns them. */
  predicate OldestFirst(ms: seq<Message>) {
    forall i, j :: 0 <= i < j < |ms| ==> ms[i].createdAt <= ms[j].createdAt
  }
}

=== FILE: session.dfy ===
/**
 What happens after a password sign-in, shared by the login page
 (src/pages/Login.js) and the combined login/registration form
 (src/pages/AuthForm.js): the `users` profile of the signed-in id is looked
 up, and its role decides which panel the app navigates to, carrying the
 profile along.
 */
module Session {
  import opened Rows

  /** The two panels a signed-in user lands on. */
  datatype Route = StaffPanelRoute | PatientPanelRoute

  /** The router path of a panel. */
  function Path(r: Route): (p: string)
    ensures p == "/staffpanel" <==> r == StaffPanelRoute
    ensures p == "/patientpanel" <==> r == PatientPanelRoute
  {
    match r
    case StaffPanelRoute => "/staffpanel"
    case PatientPanelRoute => "/patientpanel"
  }

  /** Distinct panels have distinct paths. */
  lemma PathInjective(a: Route, b: Route)
    ensures Path(a) == Path(b) <==> a == b
  {
  }

  /** Exactly the role "staff" goes to the staff panel; every other role,
      including an empty or unknown one, goes to the patient panel. */
  function RouteFor(role: string): (r: Route)
    ensures r == StaffPanelRoute <==> role == "staff"
  {
    if role == "staff" then StaffPanelRoute else PatientPanelRoute
  }

  /** `navigate(path, { state: { profile } })`. */
  datatype Navigation = Navigation(route: Route, profile: UserRecord)

  /** What the password sign-in answered: its error message, or the user id. */
  datatype SignInReply = SignInFailed(error: string) | SignedIn(userId: UserId)

  /** The end of a sign-in attempt: a message on the page, or a navigation. */
  datatype Landing = Refused(message: string) | Navigated(to: Navigation)

  /** A sign-in reply followed by the profile lookup. `profiles` holds the
      `users` rows by id (a missing id stands for an empty or failed lookup);
      `notFound` is the page's own message for that case. */
  function Land(reply: SignInReply, profiles: map<UserId, UserRecord>, notFound: string): (l: Landing)
    ensures reply.SignInFailed? ==> l == Refused(reply.error)
    ensures reply.SignedIn? && reply.userId !in profiles ==> l == Refused(notFound)
    ensures l.Navigated? <==> reply.SignedIn? && reply.userId in profiles
    ensures l.Navigated? ==>
      && l.to.profile == profiles[reply.userId]
      && (l.to.route == StaffPanelRoute <==> l.to.profile.role == "staff")
  {
    match reply
    case SignInFailed(e) => Refused(e)
    case SignedIn(uid) =>
      if uid !in profiles then Refused(notFound)
      else Navigated(Navigation(RouteFor(profiles[uid].role), profiles[uid]))
  }
}

=== FILE: staff_appointments.dfy ===
/**
 The staff appointments table (src/pages/StaffAppointments.js): a staff
 member's appointments with Approve, Reject and Request Reschedule on every
 row, whatever its status.
 */
module StaffAppointments {
  import opened Rows
  import opened Appointments
  import StaffPanel

  /** The table's state: the fetched rows and the loading flag. */
  datatype Table = Table(appointments: seq<Appointment>, loading: bool)

  /** What the appointments query returned: an error, or rows (possibly `null`). */
  datatype Reply = Failed | Fetched(rows: Option<seq<Appointment>>)

  /** `fetchAppointments`: without a staff id it does nothing; an error keeps
      the rows; `null` data counts as no rows. Loading ends either way. */
  function Fetch(t: Table, staffId: Option<UserId>, reply: Reply): (r: Table)
    ensures staffId.None? || staffId.value == "" ==> r == t
    ensures staffId.Some? && staffId.value != "" ==> !r.loading
    ensures staffId.Some? && staffId.value != "" ==>
      r.appointments == (match reply
        case Failed => t.appointments
        case Fetched(None) => []
        case Fetched(Some(rows)) => rows)
  {
    if staffId.None? || staffId.value == "" then t
    else match reply
      case Failed => t.(loading := false)
      case Fetched(rows) => Table(if rows.Some? then rows.value else [], false)
  }

  /** The three row buttons. */
  datatype Decision = Approve | Reject | RequestReschedule

  /** The alert shown when a decision's write fails. */
  function ErrorText(d: Decision): (r: string)
    ensures r != ""
    ensures (d == RequestReschedule) <==> r == "Error requesting reschedule."
    ensures d != RequestReschedule ==> r == "Error updating appointment."
  {
    if d == RequestReschedule then "Error requesting reschedule." else "Error updating appointment."
  }

  /** The write a decision asks for. Approve and Reject set the status only.
      Request Reschedule asks for a time (`answer`, `None` when cancelled):
      no answer or an empty one writes nothing; otherwise the answer is
      converted to an ISO instant by `toIso`, which has no value for text
      that is not a date (the conversion throws and nothing is written). */
  function DecisionPatch(id: RowId, d: Decision, answer: Option<string>, toIso: string -> Option<string>): (p: Option<Patch>)
    ensures d == Approve ==> p == Some(Patch(id, Confirmed, None))
    ensures d == Reject ==> p == Some(Patch(id, Rejected, None))
    ensures d == RequestReschedule ==>
      (p.Some? <==> answer.Some? && answer.value != "" && toIso(answer.value).Some?)
    ensures d == RequestReschedule && p.Some? ==>
      p.value == Patch(id, RescheduleRequested, toIso(answer.value))
  {
    match d
    case Approve => Some(Patch(id, Confirmed, None))
    case Reject => Some(Patch(id, Rejected, None))
    case RequestReschedule =>
      if answer.None? || answer.value == "" then None
      else
        var iso := toIso(answer.value);
        if iso.None? then None else Some(Patch(id, RescheduleRequested, iso))
  }

  /** A decision on row `id`: the list after the write and refetch, and the
      alert, if any. A failed write alerts and leaves the list as it was. */
  function Decide(appts: seq<Appointment>, id: RowId, d: Decision, answer: Option<string>,
                  toIso: string -> Option<string>, writeFails: bool): (r: (seq<Appointment>, Option<string>))
    ensures DecisionPatch(id, d, answer, toIso).None? ==> r == (appts, None)
    ensures DecisionPatch(id, d, answer, toIso).Some? && writeFails ==> r == (appts, Some(ErrorText(d)))
    ensures |r.0| == |appts|
    ensures forall i :: 0 <= i < |appts| && appts[i].id != id ==> r.0[i] == appts[i]
    ensures !writeFails && d != RequestReschedule ==>
      forall i :: 0 <= i < |appts| && appts[i].id == id ==>
        r.0[i].status == (if d == Approve then Confirmed else Rejected) && r.0[i].date == appts[i].date
    ensures DecisionPatch(id, d, answer, toIso).Some? && !writeFails ==> r.1.None?
    ensures !writeFails && d == RequestReschedule && DecisionPatch(id, d, answer, toIso).Some? ==>
      forall i :: 0 <= i < |appts| && appts[i].id == id ==>
        r.0[i].status == RescheduleRequested && r.0[i].date == toIso(answer.value).value
  {
    match DecisionPatch(id, d, answer, toIso)
    case None => (appts, None)
    case Some(p) =>
      if writeFails then (appts, Some(ErrorText(d))) else (Apply(appts, p), None)
  }

  /** Unlike the staff panel, this table offers its buttons on every row: a
      done or cancelled appointment can be approved again here, while the
      panel offers no action on it. */
  lemma FinalRowsReopenHere(a: Appointment)
    requires StaffPanel.Terminal(a.status)
    ensures forall act: StaffPanel.Action :: StaffPanel.Next(a.status, act).None?
    ensures Decide([a], a.id, Approve, None, _ => None, false).0 == [a.(status := Confirmed)]
  {
    StaffPanel.TerminalIffNoAction(a.status);
    var r := Decide([a], a.id, Approve, None, _ => None, false).0;
    assert |r| == 1 && r[0] == a.(status := Confirmed);
  }

  /** What the component renders. */
  datatype Screen = Notice(text: string) | Listing(shown: seq<Appointment>)

  function Render(staffId: Option<UserId>, t: Table): (s: Screen)
    ensures s.Listing? <==> staffId.Some? && staffId.value != "" && !t.loading && t.appointments != []
    ensures s.Listing? ==> s.shown == t.appointments
    ensures staffId.None? || staffId.value == "" ==> s == Notice("Loading staff data...")
  {
    if staffId.None? || staffId.value == "" then Notice("Loading staff data...")
    else if t.loading then Notice("Loading appointments...")
    else if t.appointments == [] then Notice("No appointments found.")
    else Listing(t.appointments)
  }

  /** What the table shows after a load: a successful fetch of rows lists
      exactly those rows, an empty or `null` result shows the empty notice,
      and a failed fetch goes on showing the rows from before. */
  lemma ShowsWhatWasFetched(t: Table, staffId: UserId, rows: seq<Appointment>)
    requires staffId != ""
    ensures rows != [] ==> Render(Some(staffId), Fetch(t, Some(staffId), Fetched(Some(rows)))) == Listing(rows)
    ensures rows == [] ==> Render(Some(staffId), Fetch(t, Some(staffId), Fetched(Some(rows)))) == Notice("No appointments found.")
    ensures Render(Some(staffId), Fetch(t, Some(staffId), Fetched(None))) == Notice("No appointments found.")
    ensures Render(Some(staffId), Fetch(t, Some(staffId), Failed)) ==
      if t.appointments != [] then Listing(t.appointments) else Notice("No appointments found.")
  {
  }
}

=== FILE: staff_panel.dfy ===
/**
 The staff panel (src/pages/StaffPanel.js): the notification bell that
 summarises received messages per sender, the search and status filters
 over the staff member's appointments, and the row actions with their
 enablement rule.
 */
module StaffPanel {
  import opened Rows
  import opened Lists
  import opened Text
  import opened Grouping
  import opened Appointments

  // ---------------------------------------------------------------- bell

  /** One bell entry: who wrote, their last message and how many are unread. */
  datatype SenderSummary = SenderSummary(
    id: UserId,
    firstName: string,
    lastName: string,
    lastMessage: string,
    lastTime: Timestamp,
    unread: nat)

  /** The summary of one sender's rows (oldest first, as queried). The name
      parts follow JavaScript's `||`: a missing row, or an empty field, falls
      back to the sender id, "Unknown" and "". */
  function SummarizeSender(users: map<UserId, Person>, g: Group): (s: SenderSummary)
    requires g.msgs != []
    ensures s.lastMessage == g.msgs[|g.msgs| - 1].text && s.lastTime == g.msgs[|g.msgs| - 1].createdAt
    ensures s.unread == Count(g.msgs, Unread)
    ensures g.key !in users ==> s.id == g.key && s.firstName == "Unknown" && s.lastName == ""
    ensures g.key in users ==>
      && s.id == (if users[g.key].id != "" then users[g.key].id else g.key)
      && s.firstName == (if users[g.key].firstName != "" then users[g.key].firstName else "Unknown")
      && s.lastName == users[g.key].lastName
  {
    var last := g.msgs[|g.msgs| - 1];
    var found := g.key in users;
    SenderSummary(
      if found && users[g.key].id != "" then users[g.key].id else g.key,
      if found && users[g.key].firstName != "" then users[g.key].firstName else "Unknown",
      if found then users[g.key].lastName else "",
      last.text,
      last.createdAt,
      Count(g.msgs, Unread))
  }

  function SummarizeSenders(users: map<UserId, Person>, gs: seq<Group>): (ss: seq<SenderSummary>)
    requires forall i :: 0 <= i < |gs| ==> gs[i].msgs != []
    ensures |ss| == |gs|
    ensures forall i :: 0 <= i < |gs| ==> ss[i] == SummarizeSender(users, gs[i])
  {
    seq(|gs|, i requires 0 <= i < |gs| => SummarizeSender(users, gs[i]))
  }

  /** `summaries.reduce((sum, s) => sum + s.unread_count, 0)`. */
  function BadgeTotal(ss: seq<SenderSummary>): nat {
    if ss == [] then 0 else ss[0].unread + BadgeTotal(ss[1..])
  }

  lemma {:induction false} BadgeTotalSummaries(users: map<UserId, Person>, gs: seq<Group>)
    requires forall i :: 0 <= i < |gs| ==> gs[i].msgs != []
    ensures BadgeTotal(SummarizeSenders(users, gs)) == SumCounts(gs, Unread)
  {
    if gs != [] {
      BadgeTotalSummaries(users, gs[1..]);
      assert SummarizeSenders(users, gs)[1..] == SummarizeSenders(users, gs[1..]);
    }
  }

  /** The bell: its entries and the badge number. */
  datatype Bell = Bell(summaries: seq<SenderSummary>, count: nat)

  /** `fetchUnreadNotifications` over the rows received by the signed-in
      user. Without a profile, or when the query reports an error, the bell
      keeps what it showed. Otherwise there is one entry per sender and the
      badge is the number of unread received rows. */
  function RefreshBell(b: Bell, me: Option<UserId>, received: Option<seq<Message>>, users: map<UserId, Person>): (r: Bell)
    ensures me.None? || received.None? ==> r == b
    ensures me.Some? && received.Some? ==>
      && r.summaries == SummarizeSenders(users, GroupBy(received.value, BySender))
      && r.count == BadgeTotal(r.summaries)
      && r.count == Count(received.value, Unread)
  {
    if me.None? || received.None? then b
    else
      var gs := GroupBy(received.value, BySender);
      var ss := SummarizeSenders(users, gs);
      BadgeTotalSummaries(users, gs);
      SumCountsGroupBy(received.value, BySender, Unread);
      Bell(ss, BadgeTotal(ss))
  }

  /** On rows that are all addressed to me, "unread" and "unread and addressed to me" count alike. */
  lemma {:induction false} UnreadReceivedCount(me: UserId, ms: seq<Message>)
    requires forall m :: m in ms ==> m.receiver == me
    ensures Count(ms, Unread) == Count(ms, UnreadFor(me))
  {
    if ms != [] {
      assert forall m :: m in ms[1..] ==> m in ms;
      UnreadReceivedCount(me, ms[1..]);
      assert ms[0] in ms;
    }
  }

  /** The badge is the number of unread messages addressed to me, the sum of
      the entries' counts, and the bell has one entry per sender, grouped
      exactly as the chat groups the same rows by counterpart. */
  lemma BellCountsUnreadReceived(b: Bell, me: UserId, received: seq<Message>, users: map<UserId, Person>)
    requires forall m :: m in received ==> m.receiver == me
    ensures var r := RefreshBell(b, Some(me), Some(received), users);
      && r.count == Count(received, UnreadFor(me))
      && GroupBy(received, BySender) == GroupBy(received, ByCounterpart(me))
  {
    UnreadReceivedCount(me, received);
    ReceivedBySenderIsByCounterpart(received, me);
  }

  /** With rows oldest first, an entry's last message is that sender's newest. */
  lemma SenderSummaryIsNewest(users: map<UserId, Person>, received: seq<Message>, i: nat)
    requires OldestFirst(received)
    requires i < |GroupBy(received, BySender)|
    ensures var g := GroupBy(received, BySender)[i];
      var s := SummarizeSender(users, g);
      forall m :: m in received && m.sender == g.key ==> s.lastTime >= m.createdAt
  {
    LastIsNewest(received, BySender, i);
  }

  /** The bell's message line: the first 40 UTF-16 code units, then "..." if the text is longer. */
  function BellPreview(text: string): (r: string)
    ensures Length(text) <= 40 ==> r == text
    ensures Length(text) > 40 ==>
      && |r| >= 3 && r[|r| - 3..] == "..." && CutAt(text, 40, r[..|r| - 3])
      && 39 <= Length(r[..|r| - 3])
    ensures (forall i :: 0 <= i < |text| ==> CodeUnits(text[i]) == 1) ==>
      r == if |text| > 40 then text[..40] + "..." else text
  {
    if forall i :: 0 <= i < |text| ==> CodeUnits(text[i]) == 1 then
      PreviewBmp(text, 40);
      Preview(text, 40)
    else Preview(text, 40)
  }

  // ---------------------------------------------------------------- filters

  /** The name test of the search box; `text` is the lower-cased search text.
      An appointment without a joined patient never matches. */
  predicate NameMatches(a: Appointment, text: string) {
    a.patient.Some? &&
    (Contains(ToLower(a.patient.value.firstName), text) || Contains(ToLower(a.patient.value.lastName), text))
  }

  /** The status test of the status drop-down: the stored text equals the selected value. */
  predicate StatusMatches(a: Appointment, statusFilter: string) {
    StatusName(a.status) == statusFilter
  }

  function NameTest(text: string): Appointment -> bool {
    a => NameMatches(a, text)
  }

  function StatusTest(statusFilter: string): Appointment -> bool {
    a => StatusMatches(a, statusFilter)
  }

  /** What the table keeps: an empty filter keeps everything, a set one must match. */
  predicate Keep(a: Appointment, searchText: string, statusFilter: string) {
    && (searchText == "" || NameMatches(a, ToLower(searchText)))
    && (statusFilter == "" || StatusMatches(a, statusFilter))
  }

  function KeepTest(searchText: string, statusFilter: string): Appointment -> bool {
    a => Keep(a, searchText, statusFilter)
  }

  /** The filter effect: the search filter, then the status filter, each
      applied only when set. The result is the single conjunctive filter, so
      it keeps exactly the appointments passing both and in their order. */
  function FilterAppointments(all: seq<Appointment>, searchText: string, statusFilter: string): (r: seq<Appointment>)
    ensures r == Filter(all, KeepTest(searchText, statusFilter))
    ensures forall a :: a in r ==> a in all && Keep(a, searchText, statusFilter)
    ensures forall a :: a in all && Keep(a, searchText, statusFilter) ==> a in r
    ensures IsSubsequence(r, all)
    ensures searchText == "" && statusFilter == "" ==> r == all
  {
    var byName := if searchText != "" then Filter(all, NameTest(ToLower(searchText))) else all;
    var r := if statusFilter != "" then Filter(byName, StatusTest(statusFilter)) else byName;
    FilterSteps(all, searchText, statusFilter);
    r
  }

  lemma FilterSteps(all: seq<Appointment>, searchText: string, statusFilter: string)
    ensures var byName := if searchText != "" then Filter(all, NameTest(ToLower(searchText))) else all;
      (if statusFilter != "" then Filter(byName, StatusTest(statusFilter)) else byName)
        == Filter(all, KeepTest(searchText, statusFilter))
  {
    var text := ToLower(searchText);
    var keep := KeepTest(searchText, statusFilter);
    if searchText != "" && statusFilter != "" {
      FilterFilter(all, NameTest(text), StatusTest(statusFilter), keep);
    } else if searchText != "" {
      FilterSameTest(all, NameTest(text), keep);
    } else if statusFilter != "" {
      FilterSameTest(all, StatusTest(statusFilter), keep);
    } else {
      FilterKeepsAll(all, keep);
    }
  }

  // ---------------------------------------------------------------- actions

  /** The row buttons that change an appointment. */
  datatype Action = Confirm | Cancel | MarkDone | Reschedule

  /** Done and cancelled appointments are final in this panel. */
  predicate Terminal(s: Status) {
    s == Done || s == Cancelled
  }

  /** Confirm, Cancel and Reschedule are disabled, and Done is hidden, exactly
      on final statuses. */
  predicate Offered(s: Status, a: Action) {
    !Terminal(s)
  }

  /** The status an action writes, when the row offers it. */
  function Next(s: Status, a: Action): (r: Option<Status>)
    ensures r.None? <==> !Offered(s, a)
  {
    if !Offered(s, a) then None
    else match a
      case Confirm => Some(Confirmed)
      case Cancel => Some(Cancelled)
      case MarkDone => Some(Done)
      case Reschedule => Some(Pending)
  }

  /** A status is final exactly when no action is offered on it; on any
      other status each button writes its own status. */
  lemma TerminalIffNoAction(s: Status)
    ensures Terminal(s) <==> forall a: Action :: Next(s, a).None?
    ensures !Terminal(s) ==>
      && Next(s, Confirm) == Some(Confirmed) && Next(s, Cancel) == Some(Cancelled)
      && Next(s, MarkDone) == Some(Done) && Next(s, Reschedule) == Some(Pending)
  {
    if !Terminal(s) {
      assert Next(s, Confirm).Some?;
    }
  }

  /** The write behind a button. Confirm, Cancel and Done ask
      `window.confirm` first (`approved`) and set the status only. Reschedule
      writes the date the dialog saves, already converted to an ISO instant
      (`date`; none when no date was chosen or the text is not a date), with
      status pending. Write errors are not checked, so a refetch follows. */
  function ActionPatch(appt: Appointment, a: Action, approved: bool, date: Option<string>): (p: Option<Patch>)
    ensures Terminal(appt.status) ==> p.None?
    ensures p.Some? ==> p.value.id == appt.id && Some(p.value.status) == Next(appt.status, a)
    ensures p.Some? <==> Offered(appt.status, a) && (if a == Reschedule then date.Some? else approved)
    ensures p.Some? ==> p.value.date == (if a == Reschedule then date else None)
  {
    match Next(appt.status, a)
    case None => None
    case Some(s) =>
      if a == Reschedule then
        if date.None? then None else Some(Patch(appt.id, Pending, date))
      else if approved then Some(Patch(appt.id, s, None))
      else None
  }

  /** The list after a button and the refetch that follows it: a final row
      keeps the whole list, and rows with other ids never change. */
  function Act(all: seq<Appointment>, appt: Appointment, a: Action, approved: bool, date: Option<string>): (r: seq<Appointment>)
    ensures Terminal(appt.status) ==> r == all
    ensures |r| == |all|
    ensures forall i :: 0 <= i < |all| && all[i].id != appt.id ==> r[i] == all[i]
    ensures forall i :: 0 <= i < |all| && all[i].id == appt.id ==>
      r[i].status == (if ActionPatch(appt, a, approved, date).Some? then Next(appt.status, a).value else all[i].status)
    ensures forall i :: 0 <= i < |all| && all[i].id == appt.id ==>
      r[i].date == (if ActionPatch(appt, a, approved, date).Some? && a == Reschedule then date.value else all[i].date)
  {
    match ActionPatch(appt, a, approved, date)
    case None => all
    case Some(p) => Apply(all, p)
  }

  /** The reschedule dialog: the appointment it is open on (none: closed) and
      the chosen date text. */
  datatype RescheduleDialog = RescheduleDialog(target: Option<Appointment>, newDate: string)

  /** The Reschedule button opens the dialog on its row; the date text is
      whatever was typed last. */
  function OpenReschedule(d: RescheduleDialog, appt: Appointment): (r: RescheduleDialog)
    ensures r.target == Some(appt) && r.newDate == d.newDate
  {
    d.(target := Some(appt))
  }

  /** The dialog's Cancel closes it and keeps the date text. */
  function CancelReschedule(d: RescheduleDialog): (r: RescheduleDialog)
    ensures r.target.None? && r.newDate == d.newDate
  {
    d.(target := None)
  }

  /** `saveReschedule`: with no date it only alerts. Otherwise the date goes
      through `toIso` (no value: the conversion throws, nothing is written and
      the dialog stays); then it writes the date with status pending, closes
      the dialog and clears the date. */
  function SaveReschedule(d: RescheduleDialog, toIso: string -> Option<string>): (r: (RescheduleDialog, Option<Patch>, Option<string>))
    requires d.target.Some?
    ensures d.newDate == "" ==> r == (d, None, Some("Select a new date"))
    ensures d.newDate != "" && toIso(d.newDate).None? ==> r == (d, None, None)
    ensures d.newDate != "" && toIso(d.newDate).Some? ==>
      r == (RescheduleDialog(None, ""), Some(Patch(d.target.value.id, Pending, toIso(d.newDate))), None)
  {
    if d.newDate == "" then (d, None, Some("Select a new date"))
    else
      var iso := toIso(d.newDate);
      if iso.None? then (d, None, None)
      else (RescheduleDialog(None, ""), Some(Patch(d.target.value.id, Pending, iso)), None)
  }

  /** Saving the dialog opened on a row writes what the row's Reschedule
      action writes. */
  lemma SaveIsRescheduleAction(d: RescheduleDialog, appt: Appointment, toIso: string -> Option<string>)
    requires !Terminal(appt.status)
    ensures var date := if d.newDate == "" then None else toIso(d.newDate);
      SaveReschedule(OpenReschedule(d, appt), toIso).1 == ActionPatch(appt, Reschedule, true, date)
  {
  }

  /** Cancelling keeps the typed date, so a dialog later opened on another
      row saves that date for the other row without anything being typed. */
  lemma CancelledDateCarriesOver(d: RescheduleDialog, a: Appointment, b: Appointment, typed: string,
                                 toIso: string -> Option<string>)
    requires typed != "" && toIso(typed).Some?
    ensures var reopened := OpenReschedule(CancelReschedule(OpenReschedule(d, a).(newDate := typed)), b);
      SaveReschedule(reopened, toIso).1 == Some(Patch(b.id, Pending, toIso(typed)))
  {
  }

  /** The status cell: the stored text with its first letter upper-cased. */
  function StatusLabel(s: Status): (r: string)
    ensures |r| == |StatusName(s)| && r[1..] == StatusName(s)[1..]
    ensures 'A' <= r[0] <= 'Z' && LowerChar(r[0]) == StatusName(s)[0]
  {
    Capitalize(StatusName(s))
  }
}

=== FILE: text.dfy ===
/**
 The string helpers of JavaScript that the clinic client leans on: `trim`,
 `toLowerCase`/`toUpperCase`, `includes`, `length`, and the
 `slice(0, n) + "..."` truncation used for message previews. A Dafny `char`
 is a Unicode scalar value, while JavaScript measures and slices strings in
 UTF-16 code units; `Length` and `Take` count code units explicitly, two for
 a character outside the Basic Multilingual Plane.
 */
module Text {

  /** The characters `String.prototype.trim` removes: the WhiteSpace and
      LineTerminator code points of ECMAScript (section 12.2 and 12.3 of
      ECMA-262). */
  predicate IsSpace(c: char) {
    || c == '\U{9}' || c == '\U{B}' || c == '\U{C}' || c == ' '
    || c == '\U{A0}' || c == '\U{FEFF}' || c == '\U{1680}'
    || ('\U{2000}' <= c <= '\U{200A}')
    || c == '\U{202F}' || c == '\U{205F}' || c == '\U{3000}'
    || c == '\n' || c == '\r' || c == '\U{2028}' || c == '\U{2029}'
  }

  /** True iff every character of `s` is white space (so `s.trim()` is ""). */
  predicate AllSpace(s: string) {
    forall i :: 0 <= i < |s| ==> IsSpace(s[i])
  }

  /** `s` without its leading white space. */
  function TrimStart(s: string): (r: string)
    ensures |r| <= |s| && r == s[|s| - |r|..]
    ensures r == [] || !IsSpace(r[0])
    ensures AllSpace(s[..|s| - |r|])
  {
    if s != [] && IsSpace(s[0]) then
      var r := TrimStart(s[1..]);
      assert s[..|s| - |r|] == [s[0]] + s[1..][..|s| - 1 - |r|];
      r
    else s
  }

  /** `s` without its trailing white space. */
  function TrimEnd(s: string): (r: string)
    ensures |r| <= |s| && r == s[..|r|]
    ensures r == [] || !IsSpace(r[|r| - 1])
    ensures AllSpace(s[|r|..])
  {
    if s != [] && IsSpace(s[|s| - 1]) then
      var r := TrimEnd(s[..|s| - 1]);
      assert s[|r|..] == s[..|s| - 1][|r|..] + [s[|s| - 1]];
      r
    else s
  }

  /** JavaScript's `s.trim()`: the longest middle slice of `s` that neither
      starts nor ends with white space; everything cut off is white space. */
  function Trim(s: string): (r: string)
    ensures exists i, j :: 0 <= i <= j <= |s| && r == s[i..j] && AllSpace(s[..i]) && AllSpace(s[j..])
    ensures r == [] || (!IsSpace(r[0]) && !IsSpace(r[|r| - 1]))
  {
    var t := TrimStart(s);
    var r := TrimEnd(t);
    TrimSlice(s, t, r);
    r
  }

  /** Cutting leading white space from `s` and then trailing white space
      from what is left gives a middle slice of `s` between white space. */
  lemma TrimSlice(s: string, t: string, r: string)
    requires |t| <= |s| && t == s[|s| - |t|..] && (t == [] || !IsSpace(t[0])) && AllSpace(s[..|s| - |t|])
    requires |r| <= |t| && r == t[..|r|] && (r == [] || !IsSpace(r[|r| - 1])) && AllSpace(t[|r|..])
    ensures exists i, j :: 0 <= i <= j <= |s| && r == s[i..j] && AllSpace(s[..i]) && AllSpace(s[j..])
    ensures r == [] || (!IsSpace(r[0]) && !IsSpace(r[|r| - 1]))
  {
    var i := |s| - |t|;
    SliceOfSuffix(s, i, |r|);
    assert r != [] ==> r[0] == t[0];
    assert r == s[i..i + |r|] && AllSpace(s[..i]) && AllSpace(s[i + |r|..]);
  }

  /** Slicing a suffix is slicing the whole. */
  lemma SliceOfSuffix(s: string, n: nat, k: nat)
    requires n + k <= |s|
    ensures s[n..][k..] == s[n + k..] && s[n..][..k] == s[n..n + k]
  {
  }

  /** The empty-after-trim test `!s.trim()` holds exactly for all-white-space strings. */
  lemma TrimEmptyIff(s: string)
    ensures Trim(s) == [] <==> AllSpace(s)
  {
    if Trim(s) == [] {
      TrimEmptyOnlySpace(s);
    } else {
      var r := Trim(s);
      assert !IsSpace(r[0]);
      var i, j :| 0 <= i <= j <= |s| && r == s[i..j] && AllSpace(s[..i]) && AllSpace(s[j..]);
      assert s[i] == r[0];
    }
  }

  lemma {:induction false} TrimEmptyOnlySpace(s: string)
    requires TrimEnd(TrimStart(s)) == []
    ensures AllSpace(s)
  {
    TrimEndEmpty(TrimStart(s));
    TrimStartEmpty(s);
  }

  lemma TrimEndEmpty(t: string)
    requires TrimEnd(t) == []
    ensures AllSpace(t)
  {
    var w := t[0..];
    assert AllSpace(w);
    assert w == t;
  }

  lemma TrimStartEmpty(s: string)
    requires TrimStart(s) == []
    ensures AllSpace(s)
  {
    var w := s[..|s|];
    assert AllSpace(w);
    assert w == s;
  }

  /** Trimming twice is trimming once. */
  lemma TrimIdempotent(s: string)
    ensures Trim(Trim(s)) == Trim(s)
  {
    var r := Trim(s);
    if r != [] {
      assert TrimStart(r) == r;
      assert TrimEnd(r) == r;
    }
  }

  /** ASCII lower-casing of one character. */
  function LowerChar(c: char): char {
    if 'A' <= c <= 'Z' then (c as int + 32) as char else c
  }

  /** ASCII upper-casing of one character. */
  function UpperChar(c: char): char {
    if 'a' <= c <= 'z' then (c as int - 32) as char else c
  }

  /** `s.toLowerCase()`, restricted to the ASCII letters. */
  function ToLower(s: string): (r: string)
    ensures |r| == |s|
    ensures forall i :: 0 <= i < |r| ==> !('A' <= r[i] <= 'Z')
    ensures forall i :: 0 <= i < |r| ==> LowerChar(r[i]) == r[i]
    ensures forall i :: 0 <= i < |s| && !('A' <= s[i] <= 'Z') ==> r[i] == s[i]
    ensures forall i :: 0 <= i < |s| && 'A' <= s[i] <= 'Z' ==> r[i] as int == s[i] as int + 32 && 'a' <= r[i] <= 'z'
  {
    seq(|s|, i requires 0 <= i < |s| => LowerChar(s[i]))
  }

  /** Lower-casing distributes over concatenation. */
  lemma ToLowerAppend(a: string, b: string)
    ensures ToLower(a + b) == ToLower(a) + ToLower(b)
  {
  }

  /** `s.startsWith(p)`. */
  predicate StartsWith(s: string, p: string) {
    |p| <= |s| && s[..|p|] == p
  }

  /** `s.includes(p)`, written as the scan JavaScript performs: try every start position. */
  predicate Contains(s: string, p: string)
    decreases |s|
  {
    StartsWith(s, p) || (s != [] && Contains(s[1..], p))
  }

  /** `p` occurs in `s` starting at index `i`. */
  predicate OccursAt(s: string, p: string, i: int) {
    0 <= i <= |s| - |p| && s[i..i + |p|] == p
  }

  /** The scan finds `p` exactly when `p` occurs in `s` at some position. */
  lemma {:induction false} ContainsIff(s: string, p: string)
    ensures Contains(s, p) <==> exists i :: OccursAt(s, p, i)
    decreases |s|
  {
    if StartsWith(s, p) {
      assert OccursAt(s, p, 0);
    } else if s != [] {
      ContainsIff(s[1..], p);
      if Contains(s[1..], p) {
        var i :| OccursAt(s[1..], p, i);
        assert s[i + 1..i + 1 + |p|] == s[1..][i..i + |p|];
        assert OccursAt(s, p, i + 1);
      }
      if exists i :: OccursAt(s, p, i) {
        var i :| OccursAt(s, p, i);
        assert i != 0;
        assert s[1..][i - 1..i - 1 + |p|] == s[i..i + |p|];
        assert OccursAt(s[1..], p, i - 1);
      }
    } else {
      assert forall i :: !OccursAt(s, p, i);
    }
  }

  /** Every string includes the empty string, so an empty search keeps everything. */
  lemma {:induction false} ContainsEmpty(s: string)
    ensures Contains(s, "")
  {
    assert StartsWith(s, "");
  }

  /** Whatever includes `p + q` includes `p`: typing more only narrows a search. */
  lemma {:induction false} ContainsPrefix(s: string, p: string, q: string)
    requires Contains(s, p + q)
    ensures Contains(s, p)
    decreases |s|
  {
    if StartsWith(s, p + q) {
      assert s[..|p|] == (p + q)[..|p|];
    } else {
      ContainsPrefix(s[1..], p, q);
    }
  }

  /** Whatever `b` includes, `a + b` includes too. */
  lemma {:induction false} ContainsInSuffix(a: string, b: string, p: string)
    requires Contains(b, p)
    ensures Contains(a + b, p)
  {
    ContainsIff(b, p);
    var i :| OccursAt(b, p, i);
    assert (a + b)[|a| + i..|a| + i + |p|] == b[i..i + |p|];
    assert OccursAt(a + b, p, |a| + i);
    ContainsIff(a + b, p);
  }

  /** Looking for a one-character string is looking for the character. */
  lemma ContainsChar(s: string, c: char)
    ensures Contains(s, [c]) <==> c in s
  {
    ContainsIff(s, [c]);
    if c in s {
      var i :| 0 <= i < |s| && s[i] == c;
      assert s[i..i + 1] == [c];
      assert OccursAt(s, [c], i);
    }
    if exists i :: OccursAt(s, [c], i) {
      var i :| OccursAt(s, [c], i);
      assert s[i] == s[i..i + 1][0];
    }
  }

  /** The UTF-16 code units that encode `c`. */
  function CodeUnits(c: char): (n: nat)
    ensures 1 <= n <= 2
  {
    if c as int >= 0x1_0000 then 2 else 1
  }

  /** JavaScript's `s.length`: the number of UTF-16 code units of `s`. */
  function Length(s: string): (n: nat)
    ensures |s| <= n <= 2 * |s|
  {
    if s == [] then 0 else CodeUnits(s[0]) + Length(s[1..])
  }

  /** A text of characters from the Basic Multilingual Plane has one code unit per character. */
  lemma {:induction false} LengthBmp(s: string)
    requires forall i :: 0 <= i < |s| ==> CodeUnits(s[i]) == 1
    ensures Length(s) == |s|
  {
    if s != [] {
      LengthBmp(s[1..]);
    }
  }

  /** The longest prefix of `s` that fits in `n` code units. */
  function Take(s: string, n: nat): (r: string)
    ensures StartsWith(s, r) && Length(r) <= n
    ensures |r| < |s| ==> Length(r) + CodeUnits(s[|r|]) > n
  {
    if s == [] || CodeUnits(s[0]) > n then []
    else
      var rest := Take(s[1..], n - CodeUnits(s[0]));
      assert ([s[0]] + rest)[1..] == rest;
      [s[0]] + rest
  }

  /** When `s` does not fit in `n` code units, the prefix that fits stops short of its end. */
  lemma TakeShorter(s: string, n: nat, p: string)
    requires Length(s) > n && p == Take(s, n)
    ensures CutAt(s, n, p)
  {
    assert s[..|s|] == s;
  }

  /** `p` is the cut of `s` at `n` code units: a proper prefix that fits in
      `n` code units, in front of a character that would not fit. */
  predicate CutAt(s: string, n: nat, p: string) {
    |p| < |s| && s[..|p|] == p && Length(p) <= n && Length(p) + CodeUnits(s[|p|]) > n
  }

  /** `s.length > n ? s.slice(0, n) + "..." : s`: the text itself when it
      fits in `n` code units, otherwise a prefix of it that fills the `n`
      code units (one fewer when the cut would split a character) followed
      by "...". */
  function Preview(s: string, n: nat): (r: string)
    ensures Length(s) <= n ==> r == s
    ensures Length(s) > n ==>
      |r| >= 3 && r[|r| - 3..] == "..." && CutAt(s, n, r[..|r| - 3]) && n <= Length(r[..|r| - 3]) + 1
  {
    if Length(s) > n then
      var p := Take(s, n);
      TakeShorter(s, n, p);
      assert (p + "...")[..|p|] == p;
      p + "..."
    else s
  }

  /** On a text of characters from the Basic Multilingual Plane the preview is
      the first `n` characters and "...", as the app shows it. */
  lemma {:induction false} PreviewBmp(s: string, n: nat)
    requires forall i :: 0 <= i < |s| ==> CodeUnits(s[i]) == 1
    ensures Preview(s, n) == if |s| > n then s[..n] + "..." else s
  {
    LengthBmp(s);
    if |s| > n {
      var p := Take(s, n);
      assert p == s[..|p|];
      LengthBmp(p);
    }
  }

  /** `s.charAt(0).toUpperCase() + s.slice(1)`, restricted to ASCII letters. */
  function Capitalize(s: string): (r: string)
    ensures |r| == |s|
    ensures s != [] ==> r[1..] == s[1..] && r[0] == UpperChar(s[0])
    ensures s != [] && 'a' <= s[0] <= 'z' ==> 'A' <= r[0] <= 'Z' && LowerChar(r[0]) == s[0]
  {
    if s == [] then [] else [UpperChar(s[0])] + s[1..]
  }
}
